=== FILE: README.md ===
# Promotion generator: a verified model of its orchestration core

The program turns a product description into a social-media promotion
(a title, a message and hashtags) and then into a picture. Two agents do the
work. The content creator asks a language model for the promotion and parses
its free-form reply. The digital artist asks the model for a richer visual
prompt and then posts it to an image service, retrying with exponential
backoff. A small graph drives the agents from the console and lets the user
ask for another round. A web page runs the same two stages once.

This project models that core in Dafny:

| file | module | models |
|---|---|---|
| `wrappers.dfy` | `Wrappers` | `Option` and `Result` |
| `text.dfy` | `Text` | the Python string operations the parser relies on: `strip` (with Python's whitespace set), `split`, `join`, `startswith`, and `lower` on ASCII |
| `agent.dfy` | `Agent` | a dynamically typed argument and the outcome of one language-model call (an oracle) |
| `content_creator.dfy` | `ContentCreator` | `ContentOutput`, `validate_input` and `create_content` (agents/content_creator.py) |
| `digital_artist.dfy` | `DigitalArtist` | `validate_input` and `generate_image`: the enhancement call, the fixed request body and the retry loop (agents/digital_artist.py) |
| `workflow.dfy` | `Workflow` | `State`, the three graph nodes, `should_continue`, the edges, one run of the graph, and the start of a run (workflow.py) |
| `app.dfy` | `App` | `process_product_description` (app.py) |

Everything outside the program is a parameter:
- what the language model returned, or the message of what it raised;
- what each attempt against the image service observed, as a function from the attempt number;
- whether decoding the base64 image succeeded;
- whether building the agents and saving the image succeeded;
- what the user typed.

The image agent returns a trace of events (`Enhance`, `Post`, `Sleep`), so
"once", "before the loop", "between attempts" and "nothing after" are
statements about that trace. The recorded delays stand in for sleeping.

Python's truthiness of `state["error"]` is modelled as `Workflow.ErrorSet`:
present and non-empty. An exception with an empty message therefore counts as
no error in every later step.

The model follows the code, including these behaviours:
- A field value is the text between the first and the second occurrence of its label on the line, or up to the end of the line when the label occurs only once.
- Empty tag pieces (`Tags:` alone, `a,,b`, `a, `) are kept as `""`. The tag list always has one more entry than there are commas, so the `tags` part of the empty-field check never fires.
- Any string passes input validation, including `""`. Only a non-string is refused.
- When reading the user's answer fails, the feedback keeps its previous value and `error` takes the exception's message. If that message is non-empty, routing then uses the previous feedback: on a first pass there is none, and the run ends. If the message is empty, the error counts as unset and routing takes the no-error side: another round, unless the previous feedback was "yes".
- Errors are stored as the bare exception message.
- The loop sleeps only between attempts, 2^i seconds after attempt i: 1 and 2 seconds for three attempts.
- When the model call in `create_content` raises, the handler at agents/content_creator.py:81 reads the unbound `response`. The error that escapes is therefore Python's unbound-local error, not the model's. `ContentError.ResponseUnbound` models this.

The example reply in the content creator's own system prompt lists its
hashtags separated by spaces. The parser reads such a line as a single tag.

## Model

| member | source | states |
|---|---|---|
| Text.Strip | agents/content_creator.py:51 | `strip` returns the one slice of the text with no leading or trailing whitespace such that everything removed before and after it is whitespace |
| Text.StripIndent | agents/content_creator.py:51 | whitespace put in front of a line does not change its stripped form |
| Text.Split | agents/content_creator.py:51 | `split` on a non-empty separator returns at least one piece |
| Text.SplitJoinBack | agents/content_creator.py:70 | joining the pieces of a split with the same separator gives the text back |
| Text.SplitPiecesFree | agents/content_creator.py:70 | no piece of a split holds the separator |
| Text.SplitCount | agents/content_creator.py:70 | splitting on a character gives one more piece than the text has copies of that character |
| Text.LowerIsYes | workflow.py:126 | the lower-cased answer is "yes" exactly when the answer is y, e and s in any mix of cases, with nothing around them |
| Text.LowerIsWord | workflow.py:172 | lower-casing gives a lower-case word exactly when the input spells it in any mix of cases |
| ContentCreator.ErrorMessage | agents/content_creator.py:41-82 | every exception `create_content` lets escape has a non-empty message |
| ContentCreator.KeepNonBlank | agents/content_creator.py:51 | dropping blank lines keeps exactly the non-blank ones, in their order: the result lists the lines at the increasing positions of the non-blank lines, and only those |
| ContentCreator.FirstWithPrefix | agents/content_creator.py:54-60 | `next(...)` finds nothing exactly when no line starts with the label; otherwise it finds a line that starts with the label and no earlier line does |
| ContentCreator.LocatedOnStrippedLines | agents/content_creator.py:51-60 | searching the stripped non-blank lines finds the same line as searching every stripped line: blank lines never matter |
| ContentCreator.AfterLabel | agents/content_creator.py:67-68 | `split(label)[1]` is a prefix of the text after the label, free of the label, ending at the label's next occurrence or at the end of the line |
| ContentCreator.TagListShape | agents/content_creator.py:69-71 | tags are the stripped comma-separated pieces: exactly one more than there are commas, so never none; each is stripped and free of commas |
| ContentCreator.Parse | agents/content_creator.py:51-77 | the missing-field error exactly when one labelled line is absent; the empty-field error exactly when all are present and the title or the message is empty; otherwise the located lines' values, non-empty, with at least one tag |
| ContentCreator.CreateContent | agents/content_creator.py:39-82 | a non-string is refused before the model is called; a failed model call ends in the unbound-local error; a returned reply gives exactly the parse of its text, errors included |
| ContentCreator.TagsRoundTrip | agents/content_creator.py:69-71 | a `Tags: ` line built by joining stripped, comma-free tags with ", " parses back to the same tags, empty tags included |
| ContentCreator.StrippedTagsLine | agents/content_creator.py:51-71 | the same line after the reply's lines are stripped still starts with `Tags:` and gives back every tag, when the last tag is empty too |
| ContentCreator.ParseDisplay | agents/content_creator.py:51-77 | parsing the three lines the console prints for a promotion (workflow.py lines 116-119) gives the same promotion back, whichever of its tags are empty |
| ContentCreator.ValueBeforeSecondLabel | agents/content_creator.py:67-68 | for any label and any text `a` in which the label does not occur before its second occurrence, the value of `label + a + label + b` is `a`: a value stops at the second occurrence of its label |
| ContentCreator.SecondLabelEndsValue | agents/content_creator.py:67 | `Title: A Title: B` gives the title `A` |
| ContentCreator.TagListOf | agents/content_creator.py:69-71 | for any `v` that does not hold `Tags:`, the tags of `Tags: v` are the stripped pieces of `v` split on commas |
| ContentCreator.EmptyTagsKept | agents/content_creator.py:69-75 | `Tags: a,,b` gives the tags "a", "" and "b"; the empty piece is kept |
| ContentCreator.BareTagsLabel | agents/content_creator.py:69-75 | a bare `Tags:` line gives the single tag "" rather than an error |
| ContentCreator.IndentedLineMatches | agents/content_creator.py:51-60 | indenting any line of a reply changes no label lookup |
| ContentCreator.LowercaseLabelNotFound | agents/content_creator.py:54-55 | a line starting `title:` does not match the label `Title:` |
| DigitalArtist.RetryLoop | agents/digital_artist.py:59-97 | the loop makes n requests, 1 <= n <= max_retries; attempt n-1 is the first that is not a request exception, or the last allowed; the loop ends with that attempt's outcome; the trace is the reference schedule of posts and 2^i sleeps; with max_retries <= 0 it makes no request and returns None |
| DigitalArtist.GenerateImage | agents/digital_artist.py:30-101 | a non-string is refused with no call at all; otherwise the enhancement call comes first and happens once; its failure sends no request; every request carries the enhanced prompt; at most max(0, max_retries) requests; None exactly when max_retries <= 0 |
| DigitalArtist.ScheduleDelays | agents/digital_artist.py:92-97 | n requests are separated by n-1 sleeps, 2^i seconds after attempt i, none after the last |
| DigitalArtist.FirstFinalAttempt | agents/digital_artist.py:59-90 | when attempt k is the first that is not a request exception, exactly k+1 requests are made, k sleeps of 2^i, and the result is attempt k's outcome: nothing follows a returned image or a malformed body |
| DigitalArtist.ExhaustsRetries | agents/digital_artist.py:92-97 | when every attempt fails in transport, max_retries requests and max_retries-1 sleeps are made and the last request exception is re-raised |
| DigitalArtist.RecoversOnThirdAttempt | agents/digital_artist.py:59-97 | with the default three attempts, two transport failures and then an image give the image after three requests and sleeps of 1 and 2 seconds |
| DigitalArtist.NotAMappingStopsAtOnce | agents/digital_artist.py:76-88 | a body that is not a JSON object raises "Unexpected response type" after one request and no sleep |
| DigitalArtist.PayloadFixedButPrompt | agents/digital_artist.py:48-55 | two request bodies differ at most in their prompt |
| Workflow.CreateContent | workflow.py:74-84 | on success `content` is set and `error` cleared; otherwise `error` holds the message and `content`, `image`, `feedback`, `product_desc` and `output_dir` are unchanged |
| Workflow.GenerateImage | workflow.py:87-104 | with an error already set the state is returned as it is; a new image is always the one generated for the title; a failed agent setup stores its message; missing content stores the missing-title message; a failed generation keeps the old image and stores the generation's message; a new image with no output directory stores the missing-path message; a failed save keeps the new image and stores its message; no other field changes |
| Workflow.GetHumanFeedback | workflow.py:107-132 | feedback changes only to the lower-cased answer; after an error, an answer leaves `error` as it is; without one, an answer clears it exactly when the content could be printed (there is content, and an image comes with an output directory); a failed read keeps the old feedback and sets `error`; without an error, when the content cannot be printed (no content, or an image and no output directory) the read is never reached: feedback is kept and `error` is the missing-title or missing-path message; no other field changes |
| Workflow.ShouldContinue | workflow.py:135-139 | the run goes back to `create_content` exactly when "error is set" and "feedback is yes" agree; otherwise it ends |
| Workflow.Invoke | workflow.py:148-162 | a run starts at `create_content`, follows the graph's edges, is finished exactly when its last node is `END`, and then the routing rule on its final state says end, and never changes `product_desc` or `output_dir` |
| Workflow.InvokeRoutes | workflow.py:135-159 | a run makes k full passes and its final state is the state after k steps; every pass before the k-th routed back to `create_content`, so the run stops at the first pass whose route is `END`; without `END` it uses every pass |
| Workflow.WalkAfterPass | workflow.py:153-159 | a pass through the three nodes followed by a walk from the entry is a walk of the graph |
| Workflow.EmptyErrorIgnored | workflow.py:87-139 | an error whose message is empty makes every later node and the routing rule behave as with no error |
| Workflow.InputFailureUsesStaleFeedback | workflow.py:129-139 | when reading the answer fails with a non-empty message, the feedback is kept and the route comes from it: end, unless it was "yes" |
| Workflow.InputFailureEmptyMessage | workflow.py:107-139 | when reading the answer fails with an empty message, the feedback is kept; if the read was reached (an earlier error, or content that could be printed) the error counts as unset and the route is the no-error one: another round, unless the feedback was "yes"; otherwise the missing title or path is the error and the route is the error one |
| Workflow.RetryAfterError | workflow.py:110-138 | after an error the run goes round again exactly when the answer is "yes" in some mix of cases |
| Workflow.ApproveWithoutError | workflow.py:116-139 | without an error, once the content has been printed (there is content, and an output directory), the run ends exactly when the answer is "yes" in some mix of cases; any other answer starts another round |
| Workflow.FirstPassInputFailure | workflow.py:129-139 | from a fresh state, a failed read with a non-empty message on the first pass ends the run after that pass with no feedback |
| Workflow.QuitOrExit | workflow.py:168-187 | "quit" or "exit" in any case starts no run; any other line starts one with only the description and the output directory set |
| App.ProcessProductDescription | app.py:24-65 | at most the content node and then the image node run, the image node only without a content error; a non-empty error comes with empty fields and no image; an image is shown only after both stages succeeded, with the content's title, message and tags joined by ", "; a failure creating the output directory, an error recorded by either node, and the missing title are each returned as the error element with their message |
| App.ContentErrorSkipsImage | app.py:43-45 | after a content error the result is that error whatever the image stage would have done |
| App.ImageErrorHidesContent | app.py:48-50 | content that was created is not shown when generating the image fails |
| App.SuccessShowsContent | app.py:55-61 | when everything succeeds the result is no error, the title, the message, the tags joined by ", ", and the image |

## Left out

- The language-model chain in agents/base_agent.py (prompt templates, the client, `invoke`) is a foreign library. Each call is an oracle returning text or a failure message.
- The HTTP request, its 120-second timeout, JSON decoding, base64 decoding and `PIL.Image.open` are oracles. Whether a body that is not JSON is retried depends on the version of the HTTP library, which is not part of this model. An attempt can report either kind, as `RequestFailed` or `UnreadableBody`.
- Sleeping is not performed. Each delay is recorded as a `Sleep` event.
- Logging, `create_output_directory`, `os.makedirs` and `image.save` are out of scope. The directory and the save are oracles that succeed or fail with a message.
- Reading the environment in `create_agents` and check_env.py is out of scope. Only the outcome is kept: both agents built, or a failure message.
- The console's `input`/`print` and the `while True` loop in `main` are not modelled. One turn is `Workflow.StartRun`, and the answer is a parameter.
- Workflow.Invoke: LangGraph's step limit (`recursion_limit`, 25 by default) is not modelled. After about eight rounds it raises `GraphRecursionError`, which `main`'s handler logs and re-raises, so the whole console program ends. The model instead takes one oracle bundle per pass and stops when they run out (`finished` is then false).
- LangGraph's `StateGraph` compile and invoke mechanics are not modelled. The edges are written out directly.
- The Gradio page and the numpy conversion of the image are left out. `App.UiResult` keeps the image itself.
- The re-exports in agents/__init__.py are left out.
- `lower()` and `strip()` are modelled on characters, not on Python's full Unicode case mapping. `lower()` is modelled on ASCII letters only.
- The interpreter's messages for an unbound local, a `None` attribute and a `None` path are the Python 3.11 wording.
- Text.Split: its own contract says only that there is at least one piece; what the pieces are is stated by Text.SplitJoinBack, Text.SplitPiecesFree and Text.SplitCount, because keeping those facts in the function's contract made every proof that unfolds `split` expensive.
- ContentCreator.ParseDisplay: the round trip needs a title and a message that are non-empty, trimmed, one line long and free of their own label, and tags that are trimmed, free of commas and line breaks, and whose join does not hold `Tags:`. Other promotions do not come back unchanged: the parser strips values, splits on commas and stops a value at its label's second occurrence.
- A `KeyboardInterrupt` in `main` is not modelled.

=== FILE: agent.dfy ===
/** What the two agents share (agents/base_agent.py): a call into the
    language model, which this model treats as an oracle, and the
    dynamically typed arguments the agents check before calling it. */
module Agent {
  /** A dynamically typed argument: a Python `str`, or anything else. */
  datatype Arg = Str(s: string) | NonStr

  /** What one call into the language model produced: its text, or the
      message of the exception it raised. */
  datatype Reply = Reply(text: string) | CallFailed(message: string)
}

=== FILE: app.dfy ===
/** The single-pass web pipeline (`process_product_description` in
    app.py): the content node, then the image node, each at most once, and
    the final state mapped to the five values the page shows. */
module App {
  import opened Wrappers
  import opened Text
  import opened Agent
  import ContentCreator
  import DigitalArtist
  import Workflow

  /** `(error, title, message, tags, image)`; the image is kept as the
      model's image rather than converted to an array. */
  datatype UiResult = UiResult(
    error: string,
    title: string,
    message: string,
    tags: string,
    image: Option<DigitalArtist.Image>)

  function ErrorResult(message: string): UiResult {
    UiResult(message, "", "", "", None)
  }

  /** The result and the nodes that ran, in order. */
  datatype Ui = Ui(result: UiResult, stages: seq<Workflow.Node>)

  /** `process_product_description(desc)`. `dir` is what creating the output
      directory produced; the other parameters are the two nodes' oracles. */
  function ProcessProductDescription(desc: string, dir: Result<string, string>,
                                     contentSetup: Workflow.Setup, reply: Reply,
                                     imageSetup: Workflow.Setup, artist: Workflow.Artist,
                                     save: Workflow.Save): (u: Ui)
    ensures u.stages == [] || u.stages == [Workflow.CreateContentNode]
      || u.stages == [Workflow.CreateContentNode, Workflow.GenerateImageNode]
    ensures u.stages == [] <==> dir.Failure?
    ensures dir.Success? ==>
      (u.stages == [Workflow.CreateContentNode] <==>
        Workflow.ErrorSet(Workflow.CreateContent(Workflow.InitialState(desc, dir.value), contentSetup, reply)))
    ensures u.result.error != "" ==> u.result == ErrorResult(u.result.error)
    ensures u.result.image.Some? ==>
      && dir.Success? && contentSetup.Ready? && imageSetup.Ready?
      && ContentCreator.CreateContent(Str(desc), reply).Success?
      && var c := ContentCreator.CreateContent(Str(desc), reply).value;
      && Workflow.Drawn(c.title, artist) == DigitalArtist.Generated(u.result.image.value)
      && (save.Saved? || save.message == "")
      && u.result == UiResult("", c.title, c.message, Join(c.tags, ", "), u.result.image)
    ensures dir.Failure? ==> u.result == ErrorResult(dir.error)
    ensures dir.Success? ==>
      var s1 := Workflow.CreateContent(Workflow.InitialState(desc, dir.value), contentSetup, reply);
      var s2 := Workflow.GenerateImage(s1, imageSetup, artist, save);
      && (Workflow.ErrorSet(s1) ==> u.result == ErrorResult(s1.error.value))
      && (!Workflow.ErrorSet(s1) && Workflow.ErrorSet(s2) ==> u.result == ErrorResult(s2.error.value))
      && (!Workflow.ErrorSet(s1) && !Workflow.ErrorSet(s2) && s2.content.None? ==>
            u.result == ErrorResult(Workflow.NoTitle))
  {
    match dir
    case Failure(message) => Ui(ErrorResult(message), [])
    case Success(d) =>
      var s1 := Workflow.CreateContent(Workflow.InitialState(desc, d), contentSetup, reply);
      if Workflow.ErrorSet(s1) then Ui(ErrorResult(s1.error.value), [Workflow.CreateContentNode])
      else
        var s2 := Workflow.GenerateImage(s1, imageSetup, artist, save);
        var stages := [Workflow.CreateContentNode, Workflow.GenerateImageNode];
        if Workflow.ErrorSet(s2) then Ui(ErrorResult(s2.error.value), stages)
        else
          match s2.content
          case None => Ui(ErrorResult(Workflow.NoTitle), stages)
          case Some(c) => Ui(UiResult("", c.title, c.message, Join(c.tags, ", "), s2.image), stages)
  }

  /** When the content node records an error, the result is that error and
      nothing the image node would have seen makes a difference. */
  lemma {:induction false} ContentErrorSkipsImage(desc: string, dir: string, contentSetup: Workflow.Setup,
                                                  reply: Reply, imageSetup: Workflow.Setup,
                                                  artist: Workflow.Artist, save: Workflow.Save,
                                                  imageSetup': Workflow.Setup, artist': Workflow.Artist,
                                                  save': Workflow.Save)
    requires Workflow.ErrorSet(Workflow.CreateContent(Workflow.InitialState(desc, dir), contentSetup, reply))
    ensures ProcessProductDescription(desc, Success(dir), contentSetup, reply, imageSetup, artist, save)
         == ProcessProductDescription(desc, Success(dir), contentSetup, reply, imageSetup', artist', save')
    ensures ProcessProductDescription(desc, Success(dir), contentSetup, reply, imageSetup, artist, save).result
         == ErrorResult(Workflow.CreateContent(Workflow.InitialState(desc, dir), contentSetup, reply).error.value)
  {
  }

  /** Everything succeeding gives no error, the content's title and
      message, its tags joined with ", ", and the image. */
  lemma {:induction false} SuccessShowsContent(desc: string, dir: string, reply: Reply,
                                               artist: Workflow.Artist, c: ContentCreator.ContentOutput,
                                               image: DigitalArtist.Image)
    requires ContentCreator.CreateContent(Str(desc), reply) == Success(c)
    requires Workflow.Drawn(c.title, artist) == DigitalArtist.Generated(image)
    ensures ProcessProductDescription(desc, Success(dir), Workflow.Ready, reply, Workflow.Ready, artist, Workflow.Saved).result
         == UiResult("", c.title, c.message, Join(c.tags, ", "), Some(image))
  {
  }

  /** Content that was created is not shown when generating the image
      fails: the result carries only the image error. */
  lemma {:induction false} ImageErrorHidesContent(desc: string, dir: string, reply: Reply,
                                                  artist: Workflow.Artist, save: Workflow.Save,
                                                  c: ContentCreator.ContentOutput, e: DigitalArtist.ImageError)
    requires ContentCreator.CreateContent(Str(desc), reply) == Success(c)
    requires Workflow.Drawn(c.title, artist) == DigitalArtist.Failed(e)
    requires DigitalArtist.ErrorMessage(e) != ""
    ensures ProcessProductDescription(desc, Success(dir), Workflow.Ready, reply, Workflow.Ready, artist, save).result
         == ErrorResult(DigitalArtist.ErrorMessage(e))
  {
  }
}

=== FILE: content_creator.dfy ===
/** The content stage: validating the product description, asking the
    language model for a promotion, and parsing its free-form reply into a
    `ContentOutput` (agents/content_creator.py). The model call itself is an
    oracle: the caller supplies what it returned. */
module ContentCreator {
  import opened Wrappers
  import opened Text
  import opened Agent

  /** The structured promotion: a title, a message and the hashtags. */
  datatype ContentOutput = ContentOutput(title: string, message: string, tags: seq<string>)

  /** The exceptions `create_content` can let escape. */
  datatype ContentError =
    | InvalidInput      // the description is not a string
    | MissingFields     // a labelled line is absent
    | EmptyFields       // the title or the message is empty
    | ResponseUnbound   // the model call raised; the handler then reads the unbound `response`

  /** `str(e)` of each error. The last one is the interpreter's message for
      reading an unbound local (Python 3.11 and later wording). */
  function ErrorMessage(e: ContentError): (m: string)
    ensures m != ""
  {
    match e
    case InvalidInput => "Invalid input: product_desc is required and must be a string"
    case MissingFields => "Response format is incorrect. Missing required fields."
    case EmptyFields => "Empty fields in the response"
    case ResponseUnbound => "cannot access local variable 'response' where it is not associated with a value"
  }

  const TitleLabel: string := "Title:"
  const MessageLabel: string := "Message:"
  const TagsLabel: string := "Tags:"

  /** `validate_input`: only the type of the description is checked. */
  predicate ValidateInput(desc: Arg) {
    desc.Str?
  }

  // ---------------------------------------------------------------------
  // Locating the labelled lines

  /** `r` holds the strings of `lines` at the positions `ix`. */
  predicate PicksAt(lines: seq<string>, r: seq<string>, ix: seq<nat>) {
    |ix| == |r| && forall j :: 0 <= j < |ix| ==> ix[j] < |lines| && r[j] == lines[ix[j]]
  }

  predicate Increasing(ix: seq<nat>) {
    forall j, k :: 0 <= j < k < |ix| ==> ix[j] < ix[k]
  }

  /** `ix` holds exactly the positions of the non-empty strings of `lines`. */
  predicate MarksNonBlank(lines: seq<string>, ix: seq<nat>) {
    forall i :: 0 <= i < |lines| ==> (lines[i] != "" <==> i in ix)
  }

  /** `ix` lists, in increasing order, exactly the positions of the
      non-empty strings of `lines`, and `r` holds the strings found there. */
  predicate SelectsNonBlank(lines: seq<string>, r: seq<string>, ix: seq<nat>) {
    PicksAt(lines, r, ix) && Increasing(ix) && MarksNonBlank(lines, ix)
  }

  /** The positions one further on. */
  function Shift(ix: seq<nat>): (r: seq<nat>)
    ensures |r| == |ix| && forall j :: 0 <= j < |ix| ==> r[j] == ix[j] + 1
  {
    seq(|ix|, j requires 0 <= j < |ix| => ix[j] + 1)
  }

  /** A position one further on is in `Shift(ix)` exactly when the one
      before it is in `ix`. */
  lemma {:induction false} InShift(ix: seq<nat>, i: int)
    ensures i in Shift(ix) <==> 1 <= i && i - 1 in ix
  {
    if i in Shift(ix) {
      var j :| 0 <= j < |ix| && Shift(ix)[j] == i;
      assert ix[j] == i - 1;
    }
    if 1 <= i && i - 1 in ix {
      var j :| 0 <= j < |ix| && ix[j] == i - 1;
      assert Shift(ix)[j] == i;
    }
  }

  /** Positions picked after the first line, shifted, pick the same
      strings from all the lines. */
  lemma {:induction false} PicksShift(lines: seq<string>, r: seq<string>, ix: seq<nat>)
    requires |lines| >= 1 && PicksAt(lines[1..], r, ix)
    ensures PicksAt(lines, r, Shift(ix))
    ensures PicksAt(lines, [lines[0]] + r, [0] + Shift(ix))
  {
    var jx, r' := [0] + Shift(ix), [lines[0]] + r;
    forall j | 1 <= j < |jx| ensures jx[j] < |lines| && r'[j] == lines[jx[j]] {
      assert jx[j] == Shift(ix)[j - 1] && r'[j] == r[j - 1];
    }
  }

  lemma {:induction false} IncreasingShift(ix: seq<nat>)
    requires Increasing(ix)
    ensures Increasing(Shift(ix)) && Increasing([0] + Shift(ix))
  {
    var jx := [0] + Shift(ix);
    forall j, k | 0 <= j < k < |jx| ensures jx[j] < jx[k] {
      if j > 0 {
        assert jx[j] == ix[j - 1] + 1 && jx[k] == ix[k - 1] + 1;
      }
    }
  }

  /** The non-blank positions after the first line, shifted, are the
      non-blank positions of all the lines but the first; with 0 added
      they are all of them when the first line is not blank. */
  lemma {:induction false} MarksShift(lines: seq<string>, ix: seq<nat>)
    requires |lines| >= 1 && MarksNonBlank(lines[1..], ix)
    ensures lines[0] == "" ==> MarksNonBlank(lines, Shift(ix))
    ensures lines[0] != "" ==> MarksNonBlank(lines, [0] + Shift(ix))
  {
    forall i | 0 <= i < |lines|
      ensures i in Shift(ix) <==> 1 <= i && i - 1 in ix
      ensures 1 <= i ==> lines[i] == lines[1..][i - 1]
    {
      InShift(ix, i);
    }
  }

  /** A selection of the non-blank lines after the first extends to one of
      all the lines, with the first line in front when it is not blank. */
  lemma {:induction false} SelectsPrepend(lines: seq<string>, r: seq<string>, ix: seq<nat>)
    requires |lines| >= 1 && SelectsNonBlank(lines[1..], r, ix)
    ensures lines[0] == "" ==> SelectsNonBlank(lines, r, Shift(ix))
    ensures lines[0] != "" ==> SelectsNonBlank(lines, [lines[0]] + r, [0] + Shift(ix))
  {
    PicksShift(lines, r, ix);
    IncreasingShift(ix);
    MarksShift(lines, ix);
  }

  /** Drops the empty strings, keeping the order of the others. */
  function KeepNonBlank(lines: seq<string>): (r: seq<string>)
    ensures |r| <= |lines|
    ensures forall i :: 0 <= i < |r| ==> r[i] != "" && r[i] in lines
    ensures forall x :: x in lines && x != "" ==> x in r
    ensures exists ix :: SelectsNonBlank(lines, r, ix)
  {
    if |lines| == 0 then
      assert SelectsNonBlank(lines, [], []);
      []
    else
      var rest := KeepNonBlank(lines[1..]);
      var r := if lines[0] == "" then rest else [lines[0]] + rest;
      assert exists ix :: SelectsNonBlank(lines, r, ix) by {
        var ix :| SelectsNonBlank(lines[1..], rest, ix);
        SelectsPrepend(lines, rest, ix);
      }
      r
  }

  /** `[l.strip() for l in text.split("\n") if l.strip()]`. */
  function NonBlankLines(text: string): seq<string> {
    KeepNonBlank(StripAll(Split(text, "\n")))
  }

  /** `next((l for l in lines if l.startswith(key)), None)`. */
  function FirstWithPrefix(lines: seq<string>, key: string): (r: Option<string>)
    ensures r.None? <==> forall i :: 0 <= i < |lines| ==> !StartsWith(lines[i], key)
    ensures r.Some? ==> StartsWith(r.value, key)
    ensures r.Some? ==>
      exists i :: 0 <= i < |lines| && lines[i] == r.value && (forall j :: 0 <= j < i ==> !StartsWith(lines[j], key))
  {
    if |lines| == 0 then None
    else if StartsWith(lines[0], key) then Some(lines[0])
    else
      var r := FirstWithPrefix(lines[1..], key);
      assert forall i :: 1 <= i < |lines| ==> lines[i] == lines[1..][i - 1];
      r
  }

  /** The line a key is looked up in, stated over every line of the
      reply: the first line whose stripped form starts with the key, in
      its stripped form. Blank lines play no part. */
  function LabelLine(text: string, key: string): Option<string> {
    FirstWithPrefix(StripAll(Split(text, "\n")), key)
  }

  /** Dropping blank lines never changes which line a non-empty key
      finds first. */
  lemma {:induction false} KeepNonBlankFirst(lines: seq<string>, key: string)
    requires |key| > 0
    ensures FirstWithPrefix(KeepNonBlank(lines), key) == FirstWithPrefix(lines, key)
    decreases |lines|
  {
    if |lines| > 0 {
      KeepNonBlankFirst(lines[1..], key);
      if lines[0] != "" {
        assert ([lines[0]] + KeepNonBlank(lines[1..]))[1..] == KeepNonBlank(lines[1..]);
      }
    }
  }

  /** The lines the parser searches are the stripped, non-blank lines of
      the reply, and the first match for each key wins. */
  lemma {:induction false} LocatedOnStrippedLines(text: string, key: string)
    requires |key| > 0
    ensures FirstWithPrefix(NonBlankLines(text), key) == LabelLine(text, key)
  {
    KeepNonBlankFirst(StripAll(Split(text, "\n")), key);
  }

  // ---------------------------------------------------------------------
  // Extracting the values

  /** `Split(s, sep)[0]` is the text before the first separator. */
  lemma {:induction false} SplitHead(s: string, sep: string)
    requires |sep| > 0
    ensures Split(s, sep)[0] == (match Find(s, sep, 0) case None => s case Some(i) => s[..i])
  {
  }

  /** `line.split(key)[1]` for a line that starts with the key: the
      text after the key up to the key's next occurrence, or to the end
      of the line when it does not occur again. */
  function AfterLabel(line: string, key: string): (r: string)
    requires |key| > 0 && StartsWith(line, key)
    ensures var rest := line[|key|..];
      && |r| <= |rest| && r == rest[..|r|]
      && (forall j :: 0 <= j < |r| ==> !OccursAt(rest, key, j))
      && (|r| == |rest| || OccursAt(rest, key, |r|))
  {
    StartsWithOccurs(line, key);
    FindFirst(line, key, 0);
    assert Split(line, key) == [line[..0]] + Split(line[|key|..], key);
    SplitHead(line[|key|..], key);
    Split(line, key)[1]
  }

  /** The stripped value of a labelled line. */
  function FieldValue(line: string, key: string): string
    requires |key| > 0 && StartsWith(line, key)
  {
    Strip(AfterLabel(line, key))
  }

  /** The raw comma-separated tags segment of a `Tags:` line. */
  function TagsSegment(line: string): string
    requires StartsWith(line, TagsLabel)
  {
    Strip(AfterLabel(line, TagsLabel))
  }

  /** `[t.strip() for t in segment.split(",")]`. */
  function TagList(line: string): seq<string>
    requires StartsWith(line, TagsLabel)
  {
    StripAll(Split(TagsSegment(line), ","))
  }

  /** The tags are the stripped comma-separated pieces of the segment: one
      more than there are commas, so never none, and empty pieces are kept
      rather than rejected. */
  lemma {:induction false} TagListShape(line: string)
    requires StartsWith(line, TagsLabel)
    ensures var seg := TagsSegment(line); var tags := TagList(line);
      && |tags| == multiset(seg)[','] + 1
      && |Split(seg, ",")| == |tags|
      && Join(Split(seg, ","), ",") == seg
      && (forall i :: 0 <= i < |tags| ==> tags[i] == Strip(Split(seg, ",")[i]))
      && (forall i :: 0 <= i < |tags| ==> Trimmed(tags[i]) && ',' !in tags[i])
  {
    var seg := TagsSegment(line);
    SplitCount(seg, ',');
    SplitJoinBack(seg, ",");
    SplitPiecesFree(seg, ",");
    var ps := Split(seg, ",");
    forall i | 0 <= i < |ps| ensures ',' !in Strip(ps[i]) {
      ContainsChar(ps[i], ',');
      StripKeepsOut(ps[i], ',');
    }
  }

  // ---------------------------------------------------------------------
  // Parsing

  /** The parsing half of `create_content`. */
  function Parse(text: string): (r: Result<ContentOutput, ContentError>)
    ensures r == Failure(MissingFields) <==>
      LabelLine(text, TitleLabel).None? || LabelLine(text, MessageLabel).None? ||
      LabelLine(text, TagsLabel).None?
    ensures r.Failure? ==> r.error == MissingFields || r.error == EmptyFields
    ensures r == Failure(EmptyFields) <==>
      && LabelLine(text, TitleLabel).Some?
      && LabelLine(text, MessageLabel).Some?
      && LabelLine(text, TagsLabel).Some?
      && (FieldValue(LabelLine(text, TitleLabel).value, TitleLabel) == "" ||
          FieldValue(LabelLine(text, MessageLabel).value, MessageLabel) == "")
    ensures r.Success? ==>
      && r.value.title == FieldValue(LabelLine(text, TitleLabel).value, TitleLabel) != ""
      && r.value.message == FieldValue(LabelLine(text, MessageLabel).value, MessageLabel) != ""
      && r.value.tags == TagList(LabelLine(text, TagsLabel).value)
      && |r.value.tags| >= 1
  {
    var lines := NonBlankLines(text);
    LocatedOnStrippedLines(text, TitleLabel);
    LocatedOnStrippedLines(text, MessageLabel);
    LocatedOnStrippedLines(text, TagsLabel);
    var titleLine := FirstWithPrefix(lines, TitleLabel);
    var messageLine := FirstWithPrefix(lines, MessageLabel);
    var tagsLine := FirstWithPrefix(lines, TagsLabel);
    if titleLine.None? || messageLine.None? || tagsLine.None? then
      Failure(MissingFields)
    else
      var title := FieldValue(titleLine.value, TitleLabel);
      var message := FieldValue(messageLine.value, MessageLabel);
      var tags := TagList(tagsLine.value);
      if title == "" || message == "" || tags == [] then
        Failure(EmptyFields)
      else
        Success(ContentOutput(title, message, tags))
  }

  /** `ContentCreatorAgent.create_content`: validate, call the model once,
      parse its reply. */
  function CreateContent(desc: Arg, reply: Reply): (r: Result<ContentOutput, ContentError>)
    ensures r == Failure(InvalidInput) <==> desc.NonStr?
    ensures desc.Str? && reply.CallFailed? ==> r == Failure(ResponseUnbound)
    ensures desc.Str? && reply.Reply? ==> r == Parse(reply.text)
    ensures r.Success? ==> reply.Reply? && Parse(reply.text) == r
  {
    if !ValidateInput(desc) then Failure(InvalidInput)
    else
      match reply
      case CallFailed(_) => Failure(ResponseUnbound)
      case Reply(text) => Parse(text)
  }

  // ---------------------------------------------------------------------
  // Round trip through the console display

  /** The three lines the console shows for a promotion, the tags joined
      with ", " (workflow.py:116-119; the user interface joins them the
      same way). */
  function DisplayLines(c: ContentOutput): seq<string> {
    [TitleLabel + " " + c.title, MessageLabel + " " + c.message, TagsLabel + " " + Join(c.tags, ", ")]
  }

  function Display(c: ContentOutput): string {
    Join(DisplayLines(c), "\n")
  }

  /** A field value the display can carry on one line and read back. */
  predicate Carried(v: string, key: string) {
    v != "" && Trimmed(v) && '\n' !in v && !Contains(v, key)
  }

  /** The promotions whose display parses back to themselves: the title and
      message are non-empty, trimmed, one line long and free of their own
      label; there is a tag, the tags are trimmed and free of commas and
      line breaks, and their join does not hold `Tags:`. */
  predicate Displayable(c: ContentOutput) {
    && Carried(c.title, TitleLabel)
    && Carried(c.message, MessageLabel)
    && |c.tags| >= 1
    && (forall i :: 0 <= i < |c.tags| ==> Trimmed(c.tags[i]) && ',' !in c.tags[i] && '\n' !in c.tags[i])
    && !Contains(Join(c.tags, ", "), TagsLabel)
  }

  /** A line displayed under one key does not start with another key that
      differs from it at some position. */
  lemma {:induction false} NotStartsWith(key: string, v: string, other: string, k: nat)
    requires k < |key| && k < |other| && key[k] != other[k]
    ensures !StartsWith(key + " " + v, other)
  {
    var s := key + " " + v;
    assert s[k] == key[k];
    if |other| <= |s| {
      assert s[..|other|][k] == s[k];
    }
  }

  /** The three labels tell each other apart by their first two letters,
      and none starts with a space. */
  lemma LabelsDiffer()
    ensures TitleLabel[0] == 'T' && MessageLabel[0] == 'M' && TagsLabel[0] == 'T'
    ensures TitleLabel[1] == 'i' && TagsLabel[1] == 'a'
  {
  }

  /** The first of three lines that starts with a key. */
  lemma {:induction false} FirstOfThree(l1: string, l2: string, l3: string, key: string)
    ensures FirstWithPrefix([l1, l2, l3], key) ==
      if StartsWith(l1, key) then Some(l1)
      else if StartsWith(l2, key) then Some(l2)
      else if StartsWith(l3, key) then Some(l3)
      else None
  {
    var ls := [l1, l2, l3];
    assert ls[1..] == [l2, l3] && [l2, l3][1..] == [l3] && [l3][1..] == [];
    assert FirstWithPrefix([l3], key) == if StartsWith(l3, key) then Some(l3) else None;
    assert FirstWithPrefix([l2, l3], key) ==
      if StartsWith(l2, key) then Some(l2) else FirstWithPrefix([l3], key);
    assert FirstWithPrefix(ls, key) ==
      if StartsWith(l1, key) then Some(l1) else FirstWithPrefix([l2, l3], key);
  }

  /** A space in front of a text adds no occurrence of a key that does not
      start with a space. */
  lemma {:induction false} NoOccurrenceAfterSpace(s: string, p: string)
    requires |p| > 0 && p[0] != ' ' && !Contains(s, p)
    ensures forall j :: !OccursAt(" " + s, p, j)
  {
    var t := " " + s;
    forall j ensures !OccursAt(t, p, j) {
      if j == 0 {
        if |p| <= |t| {
          assert t[0..|p|][0] == ' ';
        }
      } else if 0 < j && j + |p| <= |t| {
        assert t[j..j + |p|] == s[j - 1..j - 1 + |p|];
        assert OccursAt(t, p, j) ==> OccursAt(s, p, j - 1);
      }
    }
  }

  /** A text that lacks one of the characters of a key holds no
      occurrence of it. */
  lemma {:induction false} MissingCharNoOccurrence(v: string, key: string, k: nat)
    requires k < |key| && key[k] !in v
    ensures !Contains(v, key)
  {
    forall j | 0 <= j && j + |key| <= |v| ensures !OccursAt(v, key, j) {
      assert v[j..j + |key|][k] == v[j + k];
    }
  }

  /** The value displayed after a key is read back exactly. */
  lemma {:induction false} LabelledValue(key: string, v: string)
    requires |key| > 0 && key[0] != ' ' && !Contains(v, key)
    ensures StartsWith(key + " " + v, key)
    ensures AfterLabel(key + " " + v, key) == " " + v
  {
    var line := key + " " + v;
    assert line[..|key|] == key;
    assert line[|key|..] == " " + v;
    NoOccurrenceAfterSpace(v, key);
  }

  lemma {:induction false} StripSpaced(v: string)
    requires Trimmed(v)
    ensures Strip(" " + v) == v
  {
    StripExact(" ", v, []);
    assert " " + v + [] == " " + v;
  }

  lemma {:induction false} StripTrimmed(v: string)
    requires Trimmed(v)
    ensures Strip(v) == v
  {
    StripExact([], v, []);
    assert [] + v + [] == v;
  }

  lemma {:induction false} JoinAvoids(parts: seq<string>, sep: string, c: char)
    requires c !in sep && forall i :: 0 <= i < |parts| ==> c !in parts[i]
    ensures c !in Join(parts, sep)
    decreases |parts|
  {
    if |parts| > 1 {
      JoinAvoids(parts[1..], sep, c);
    }
  }

  /** `sep.join(parts + [last])`. */
  lemma {:induction false} JoinSnoc(parts: seq<string>, sep: string, last: string)
    requires |parts| >= 1
    ensures Join(parts + [last], sep) == Join(parts, sep) + sep + last
    decreases |parts|
  {
    var ps := parts + [last];
    assert ps[1..] == parts[1..] + [last];
    if |parts| > 1 {
      JoinSnoc(parts[1..], sep, last);
    }
  }

  /** The first and the last character of a join of trimmed tags whose last
      one is non-empty are not whitespace. */
  lemma {:induction false} JoinTrimmed(tags: seq<string>)
    requires |tags| >= 1 && tags[|tags| - 1] != ""
    requires forall i :: 0 <= i < |tags| ==> Trimmed(tags[i])
    ensures Join(tags, ", ") != [] && Trimmed(Join(tags, ", "))
  {
    var n := |tags|;
    var j := Join(tags, ", ");
    if n > 1 {
      assert j == tags[0] + ", " + Join(tags[1..], ", ");
      assert j[0] == (if tags[0] == [] then ',' else tags[0][0]);
      assert tags == tags[..n - 1] + [tags[n - 1]];
      JoinSnoc(tags[..n - 1], ", ", tags[n - 1]);
      assert j[|j| - 1] == tags[n - 1][|tags[n - 1]| - 1];
    }
  }

  /** Each tag but the first, with the space the join puts before it. */
  function Padded(tags: seq<string>): (r: seq<string>)
    ensures |r| == |tags|
  {
    seq(|tags|, i requires 0 <= i < |tags| => " " + tags[i])
  }

  /** Joining with ", " is joining with "," after padding. */
  lemma {:induction false} JoinPadded(tags: seq<string>)
    requires |tags| >= 1
    ensures " " + Join(tags, ", ") == Join(Padded(tags), ",")
    decreases |tags|
  {
    if |tags| > 1 {
      JoinPadded(tags[1..]);
      assert Padded(tags)[1..] == Padded(tags[1..]);
      calc {
        " " + Join(tags, ", ");
        " " + (tags[0] + ", " + Join(tags[1..], ", "));
        (" " + tags[0]) + "," + (" " + Join(tags[1..], ", "));
        Join(Padded(tags), ",");
      }
    }
  }

  /** The comma-separated pieces of a ", " join. */
  function CommaPieces(tags: seq<string>): seq<string>
    requires |tags| >= 1
  {
    [tags[0]] + Padded(tags[1..])
  }

  lemma {:induction false} JoinCommaPieces(tags: seq<string>)
    requires |tags| >= 1
    ensures Join(tags, ", ") == Join(CommaPieces(tags), ",")
  {
    var ps := CommaPieces(tags);
    if |tags| > 1 {
      JoinPadded(tags[1..]);
      assert ps[1..] == Padded(tags[1..]);
      calc {
        Join(tags, ", ");
        tags[0] + ", " + Join(tags[1..], ", ");
        tags[0] + "," + (" " + Join(tags[1..], ", "));
        Join(ps, ",");
      }
    }
  }

  /** Stripping the comma-separated pieces of a ", " join of trimmed tags
      gives the tags. */
  lemma {:induction false} StripCommaPieces(tags: seq<string>)
    requires |tags| >= 1
    requires forall i :: 0 <= i < |tags| ==> Trimmed(tags[i])
    ensures StripAll(CommaPieces(tags)) == tags
  {
    var ps := CommaPieces(tags);
    assert forall i :: 1 <= i < |ps| ==> ps[i] == " " + tags[i];
    forall i | 0 <= i < |tags| ensures Strip(ps[i]) == tags[i] {
      if i == 0 {
        StripTrimmed(tags[0]);
      } else {
        StripSpaced(tags[i]);
      }
    }
  }

  /** Splitting a ", " join of comma-free trimmed tags on commas and
      stripping the pieces gives the tags back. */
  lemma {:induction false} SplitCommaJoin(tags: seq<string>)
    requires |tags| >= 1
    requires forall i :: 0 <= i < |tags| ==> Trimmed(tags[i]) && ',' !in tags[i]
    ensures StripAll(Split(Join(tags, ", "), ",")) == tags
  {
    var ps := CommaPieces(tags);
    JoinCommaPieces(tags);
    assert forall i :: 1 <= i < |ps| ==> ps[i] == " " + tags[i];
    SplitJoin(ps, ',');
    StripCommaPieces(tags);
  }

  /** A ", " join of trimmed tags does not start with whitespace: it starts
      with the first tag, or with the comma after an empty first tag. */
  lemma {:induction false} JoinStartsTrimmed(tags: seq<string>)
    requires |tags| >= 1
    requires forall i :: 0 <= i < |tags| ==> Trimmed(tags[i])
    ensures Join(tags, ", ") == [] || !IsSpace(Join(tags, ", ")[0])
  {
    if |tags| > 1 {
      var j := Join(tags, ", ");
      assert j == tags[0] + ", " + Join(tags[1..], ", ");
      assert j[0] == (if tags[0] == [] then ',' else tags[0][0]);
    }
  }

  /** When the last tag is empty the join ends in ", "; stripping drops
      the leading and the trailing space and leaves the comma. */
  lemma {:induction false} StripEmptyLastTag(init: seq<string>)
    requires |init| >= 1
    requires forall i :: 0 <= i < |init| ==> Trimmed(init[i])
    ensures Strip(" " + Join(init + [""], ", ")) == Join(init, ", ") + ","
  {
    var x := Join(init, ", ");
    JoinSnoc(init, ", ", "");
    assert " " + Join(init + [""], ", ") == " " + (x + ",") + " ";
    JoinStartsTrimmed(init);
    StripExact(" ", x + ",", " ");
  }

  /** The comma-separated pieces of a ", " join followed by a comma. */
  lemma {:induction false} SplitTrailingComma(init: seq<string>)
    requires |init| >= 1
    requires forall i :: 0 <= i < |init| ==> ',' !in init[i]
    ensures Split(Join(init, ", ") + ",", ",") == CommaPieces(init) + [""]
  {
    var cs := CommaPieces(init);
    var ps := cs + [""];
    assert |cs| == |init|;
    JoinCommaPieces(init);
    JoinSnoc(cs, ",", "");
    assert Join(ps, [',']) == Join(init, ", ") + ",";
    assert forall i :: 1 <= i < |init| ==> ps[i] == " " + init[i];
    assert forall i :: 0 <= i < |ps| ==> ',' !in ps[i];
    SplitJoin(ps, ',');
  }

  /** Stripping those pieces gives the tags and a final empty one. */
  lemma {:induction false} StripTrailingPiece(init: seq<string>)
    requires |init| >= 1
    requires forall i :: 0 <= i < |init| ==> Trimmed(init[i])
    ensures StripAll(CommaPieces(init) + [""]) == init + [""]
  {
    StripCommaPieces(init);
    StripTrimmed("");
    var ps := CommaPieces(init);
    assert forall i :: 0 <= i < |ps| ==> (ps + [""])[i] == ps[i];
  }

  /** When the last tag is empty, the tags segment of the displayed line
      still splits back into every tag, the last empty one included. */
  lemma {:induction false} SegmentEmptyLastTag(tags: seq<string>)
    requires |tags| >= 2 && tags[|tags| - 1] == ""
    requires forall i :: 0 <= i < |tags| ==> Trimmed(tags[i]) && ',' !in tags[i]
    ensures StripAll(Split(Strip(" " + Join(tags, ", ")), ",")) == tags
  {
    var init := tags[..|tags| - 1];
    assert tags == init + [""];
    StripEmptyLastTag(init);
    SplitTrailingComma(init);
    StripTrailingPiece(init);
  }

  /** The tags segment of a displayed `Tags:` line, split on commas and
      stripped, gives the displayed tags, whichever of them are empty. */
  lemma {:induction false} SegmentTags(tags: seq<string>)
    requires |tags| >= 1
    requires forall i :: 0 <= i < |tags| ==> Trimmed(tags[i]) && ',' !in tags[i]
    ensures StripAll(Split(Strip(" " + Join(tags, ", ")), ",")) == tags
  {
    var j := Join(tags, ", ");
    if tags[|tags| - 1] != "" {
      JoinTrimmed(tags);
      StripSpaced(j);
      SplitCommaJoin(tags);
    } else if |tags| == 1 {
      assert tags == [""] && j == "";
      StripExact(" ", "", []);
      assert " " + "" + [] == " " + j;
      SplitJoin([""], ',');
      StripTrimmed("");
    } else {
      SegmentEmptyLastTag(tags);
    }
  }

  /** The tags of a displayed `Tags:` line are the displayed tags. */
  lemma {:induction false} TagsRoundTrip(tags: seq<string>)
    requires |tags| >= 1
    requires forall i :: 0 <= i < |tags| ==> Trimmed(tags[i]) && ',' !in tags[i]
    requires !Contains(Join(tags, ", "), TagsLabel)
    ensures StartsWith(TagsLabel + " " + Join(tags, ", "), TagsLabel)
    ensures TagList(TagsLabel + " " + Join(tags, ", ")) == tags
  {
    var j := Join(tags, ", ");
    LabelledValue(TagsLabel, j);
    SegmentTags(tags);
  }

  /** An occurrence in a prefix is an occurrence in the whole. */
  lemma {:induction false} ContainsPrefix(a: string, b: string, p: string)
    requires !Contains(a + b, p)
    ensures !Contains(a, p)
  {
    forall j | OccursAt(a, p, j) ensures OccursAt(a + b, p, j) {
      assert (a + b)[j..j + |p|] == a[j..j + |p|];
    }
  }

  /** The displayed `Tags:` line, once stripped, still starts with the
      label and yields the tags. Stripping drops the trailing space left
      by an empty last tag. */
  lemma {:induction false} StrippedTagsLine(tags: seq<string>)
    requires |tags| >= 1
    requires forall i :: 0 <= i < |tags| ==> Trimmed(tags[i]) && ',' !in tags[i]
    requires !Contains(Join(tags, ", "), TagsLabel)
    ensures StartsWith(Strip(TagsLabel + " " + Join(tags, ", ")), TagsLabel)
    ensures TagList(Strip(TagsLabel + " " + Join(tags, ", "))) == tags
  {
    var line := TagsLabel + " " + Join(tags, ", ");
    var n := |tags|;
    if tags[n - 1] != "" {
      JoinTrimmed(tags);
      var j := Join(tags, ", ");
      assert line[|line| - 1] == j[|j| - 1];
      StripTrimmed(line);
      TagsRoundTrip(tags);
    } else if n == 1 {
      assert tags == [""] && line == [] + TagsLabel + " ";
      StripExact([], TagsLabel, " ");
      BareTagsLabel();
    } else {
      TagsEmptyLast(tags);
    }
  }

  /** When the last of several tags is empty, stripping the displayed
      `Tags:` line drops the final space and keeps the comma. */
  lemma {:induction false} StrippedLineEmptyLast(tags: seq<string>)
    requires |tags| >= 2 && tags[|tags| - 1] == ""
    requires forall i :: 0 <= i < |tags| ==> Trimmed(tags[i])
    ensures Strip(TagsLabel + " " + Join(tags, ", ")) == TagsLabel + " " + (Join(tags[..|tags| - 1], ", ") + ",")
    ensures Join(tags, ", ") == Join(tags[..|tags| - 1], ", ") + ", "
  {
    var init := tags[..|tags| - 1];
    assert tags == init + [""];
    var v := Join(init, ", ") + ",";
    JoinSnoc(init, ", ", "");
    var kept := TagsLabel + " " + v;
    assert TagsLabel + " " + Join(tags, ", ") == [] + kept + " ";
    StripExact([], kept, " ");
  }

  /** A `Tags:` line whose value is a ", " join followed by a comma gives
      the joined tags and one empty tag. */
  lemma {:induction false} TagListTrailingComma(init: seq<string>)
    requires |init| >= 1
    requires forall i :: 0 <= i < |init| ==> Trimmed(init[i]) && ',' !in init[i]
    requires !Contains(Join(init, ", ") + ",", TagsLabel)
    ensures StartsWith(TagsLabel + " " + (Join(init, ", ") + ","), TagsLabel)
    ensures TagList(TagsLabel + " " + (Join(init, ", ") + ",")) == init + [""]
  {
    var v := Join(init, ", ") + ",";
    LabelledValue(TagsLabel, v);
    JoinStartsTrimmed(init);
    StripSpaced(v);
    SplitTrailingComma(init);
    StripTrailingPiece(init);
  }

  /** The stripped tags line when the last of several tags is empty. */
  lemma {:induction false} TagsEmptyLast(tags: seq<string>)
    requires |tags| >= 2 && tags[|tags| - 1] == ""
    requires forall i :: 0 <= i < |tags| ==> Trimmed(tags[i]) && ',' !in tags[i]
    requires !Contains(Join(tags, ", "), TagsLabel)
    ensures StartsWith(Strip(TagsLabel + " " + Join(tags, ", ")), TagsLabel)
    ensures TagList(Strip(TagsLabel + " " + Join(tags, ", "))) == tags
  {
    var init := tags[..|tags| - 1];
    assert tags == init + [""];
    var v := Join(init, ", ") + ",";
    StrippedLineEmptyLast(tags);
    assert Join(tags, ", ") == v + " ";
    ContainsPrefix(v, " ", TagsLabel);
    TagListTrailingComma(init);
  }

  /** The title and message lines of a display are already stripped;
      stripping the tags line only drops what follows an empty last tag. */
  lemma {:induction false} DisplayLinesTrimmed(c: ContentOutput)
    requires Displayable(c)
    ensures var lines := DisplayLines(c);
      StripAll(lines) == [lines[0], lines[1], Strip(lines[2])]
  {
    var lines := DisplayLines(c);
    var l1, l2 := lines[0], lines[1];
    assert Strip(l1) == l1 by {
      assert l1[|l1| - 1] == c.title[|c.title| - 1];
      StripTrimmed(l1);
    }
    assert Strip(l2) == l2 by {
      assert l2[|l2| - 1] == c.message[|c.message| - 1];
      StripTrimmed(l2);
    }
  }

  /** The stripped lines of a display are its title and message lines and
      its stripped tags line. */
  lemma {:induction false} DisplaySplit(c: ContentOutput)
    requires Displayable(c)
    ensures var lines := DisplayLines(c);
      StripAll(Split(Display(c), "\n")) == [lines[0], lines[1], Strip(lines[2])]
  {
    var lines := DisplayLines(c);
    assert Split(Display(c), "\n") == lines by {
      JoinAvoids(c.tags, ", ", '\n');
      assert forall i :: 0 <= i < 3 ==> '\n' !in lines[i];
      SplitJoin(lines, '\n');
    }
    DisplayLinesTrimmed(c);
  }

  /** Each label finds its own line of a display. */
  lemma {:induction false} DisplayLabelLines(c: ContentOutput)
    requires Displayable(c)
    ensures var lines := DisplayLines(c);
      && LabelLine(Display(c), TitleLabel) == Some(lines[0])
      && LabelLine(Display(c), MessageLabel) == Some(lines[1])
      && LabelLine(Display(c), TagsLabel) == Some(Strip(lines[2]))
  {
    var lines := DisplayLines(c);
    var l1, l2, l3 := lines[0], lines[1], Strip(lines[2]);
    DisplaySplit(c);
    LabelsDiffer();
    LabelledValue(TitleLabel, c.title);
    LabelledValue(MessageLabel, c.message);
    StrippedTagsLine(c.tags);
    NotStartsWith(TitleLabel, c.title, MessageLabel, 0);
    NotStartsWith(TitleLabel, c.title, TagsLabel, 1);
    NotStartsWith(MessageLabel, c.message, TagsLabel, 0);
    FirstOfThree(l1, l2, l3, TitleLabel);
    FirstOfThree(l1, l2, l3, MessageLabel);
    FirstOfThree(l1, l2, l3, TagsLabel);
  }

  /** The title line of a display yields the title. */
  lemma {:induction false} DisplayTitle(c: ContentOutput)
    requires Displayable(c)
    ensures StartsWith(DisplayLines(c)[0], TitleLabel) && FieldValue(DisplayLines(c)[0], TitleLabel) == c.title
  {
    LabelledValue(TitleLabel, c.title);
    StripSpaced(c.title);
  }

  /** The message line of a display yields the message. */
  lemma {:induction false} DisplayMessage(c: ContentOutput)
    requires Displayable(c)
    ensures StartsWith(DisplayLines(c)[1], MessageLabel) && FieldValue(DisplayLines(c)[1], MessageLabel) == c.message
  {
    LabelledValue(MessageLabel, c.message);
    StripSpaced(c.message);
  }

  /** The stripped tags line of a display yields the tags. */
  lemma {:induction false} DisplayTags(c: ContentOutput)
    requires Displayable(c)
    ensures StartsWith(Strip(DisplayLines(c)[2]), TagsLabel) && TagList(Strip(DisplayLines(c)[2])) == c.tags
  {
    StrippedTagsLine(c.tags);
  }

  /** Parsing what the console displays for a promotion gives the same
      promotion back. */
  lemma {:induction false} ParseDisplay(c: ContentOutput)
    requires Displayable(c)
    ensures Parse(Display(c)) == Success(c)
  {
    DisplayLabelLines(c);
    DisplayTitle(c);
    DisplayMessage(c);
    DisplayTags(c);
  }

  // ---------------------------------------------------------------------
  // Behaviour on particular replies

  /** A value stops at the second occurrence of its label: `a` is the
      value when the label first occurs again right after it. */
  lemma {:induction false} ValueBeforeSecondLabel(key: string, a: string, b: string)
    requires |key| > 0 && !Contains(a + key[..|key| - 1], key)
    ensures StartsWith(key + a + key + b, key)
    ensures AfterLabel(key + a + key + b, key) == a
  {
    var line := key + a + key + b;
    assert line[..|key|] == key;
    var rest := line[|key|..];
    assert rest == a + key + b;
    var r := AfterLabel(line, key);
    assert OccursAt(rest, key, |a|) by {
      assert rest[|a|..|a| + |key|] == key;
    }
    var w := a + key[..|key| - 1];
    assert rest[..|w|] == w;
    forall j | 0 <= j < |a| ensures !OccursAt(rest, key, j) {
      assert j + |key| <= |w|;
      assert rest[j..j + |key|] == rest[..|w|][j..j + |key|];
      assert !OccursAt(w, key, j);
    }
    assert |r| == |a|;
    assert r == rest[..|a|] == a;
  }

  /** A text without a colon, followed by the title label less its colon,
      holds no title label. */
  lemma {:induction false} NoLabelBefore(a: string)
    requires ':' !in a
    ensures !Contains(a + TitleLabel[..|TitleLabel| - 1], TitleLabel)
  {
    var w := a + TitleLabel[..|TitleLabel| - 1];
    assert TitleLabel[5] == ':';
    assert forall i :: 0 <= i < |w| ==> w[i] != ':';
    MissingCharNoOccurrence(w, TitleLabel, 5);
  }

  /** `Title: A Title: B` gives the title `A`. */
  lemma {:induction false} SecondLabelEndsValue()
    ensures StartsWith("Title: A Title: B", TitleLabel)
    ensures FieldValue("Title: A Title: B", TitleLabel) == "A"
  {
    assert "Title: A Title: B" == TitleLabel + " A " + TitleLabel + " B";
    NoLabelBefore(" A ");
    ValueBeforeSecondLabel(TitleLabel, " A ", " B");
    StripExact(" ", "A", " ");
    assert " " + "A" + " " == " A ";
  }

  /** The tags of a `Tags:` line whose rest does not hold the label again
      are the stripped comma-separated pieces of that rest. */
  lemma {:induction false} TagListOf(v: string)
    requires !Contains(v, TagsLabel)
    ensures StartsWith(TagsLabel + " " + v, TagsLabel)
    ensures TagList(TagsLabel + " " + v) == StripAll(Split(Strip(v), ","))
  {
    LabelledValue(TagsLabel, v);
    StripIndent(" ", v);
  }

  /** Empty pieces between commas are kept as empty tags. */
  lemma {:induction false} EmptyTagsKept()
    ensures StartsWith("Tags: a,,b", TagsLabel)
    ensures TagList("Tags: a,,b") == ["a", "", "b"]
  {
    assert "Tags: a,,b" == TagsLabel + " " + "a,,b";
    assert TagsLabel[0] !in "a,,b";
    MissingCharNoOccurrence("a,,b", TagsLabel, 0);
    TagListOf("a,,b");
    StripTrimmed("a,,b");
    SplitDoubleComma();
  }

  lemma {:induction false} JoinEmptyMiddle(x: string, y: string)
    ensures Join([x, "", y], ",") == x + ",," + y
  {
    var ps := [x, "", y];
    assert ps[1..] == ["", y] && ps[1..][1..] == [y];
    assert Join(["", y], ",") == "," + y;
    assert Join(ps, ",") == x + "," + ("," + y);
  }

  /** Three comma-free pieces with an empty one in the middle. */
  lemma {:induction false} SplitEmptyMiddle(x: string, y: string)
    requires ',' !in x && ',' !in y && Trimmed(x) && Trimmed(y)
    ensures StripAll(Split(x + ",," + y, ",")) == [x, "", y]
  {
    var ps := [x, "", y];
    JoinEmptyMiddle(x, y);
    SplitJoin(ps, ',');
    StripTrimmed(x);
    StripTrimmed("");
    StripTrimmed(y);
  }

  lemma SplitDoubleComma()
    ensures StripAll(Split("a,,b", ",")) == ["a", "", "b"]
  {
    assert "a,,b" == "a" + ",," + "b";
    SplitEmptyMiddle("a", "b");
  }

  /** A `Tags:` line with nothing after the label gives one empty tag, so
      the list is never empty and the empty-fields check never fails on it. */
  lemma {:induction false} BareTagsLabel()
    ensures StartsWith(TagsLabel, TagsLabel)
    ensures TagList(TagsLabel) == [""]
  {
    assert TagsLabel[|TagsLabel|..] == "";
    StripTrimmed("");
    SplitJoin([""], ',');
  }

  /** Indenting any line of a reply changes no label lookup: labels are
      matched on stripped lines. */
  lemma {:induction false} IndentedLineMatches(lines: seq<string>, k: nat, a: string, key: string)
    requires k < |lines| && AllSpace(a) && '\n' !in a
    requires forall i :: 0 <= i < |lines| ==> '\n' !in lines[i]
    ensures LabelLine(Join(lines[k := a + lines[k]], "\n"), key) == LabelLine(Join(lines, "\n"), key)
  {
    var indented := lines[k := a + lines[k]];
    assert forall i :: 0 <= i < |indented| ==> '\n' !in indented[i];
    SplitJoin(indented, '\n');
    SplitJoin(lines, '\n');
    StripIndent(a, lines[k]);
    assert StripAll(indented) == StripAll(lines);
  }

  /** Labels are compared case-sensitively. */
  lemma {:induction false} LowercaseLabelNotFound(v: string)
    ensures !StartsWith("title:" + v, TitleLabel)
  {
    var s := "title:" + v;
    assert s[0] == 't';
    assert s[..|TitleLabel|][0] == s[0];
  }
}

=== FILE: digital_artist.dfy ===
/** The image stage (agents/digital_artist.py): one prompt-enhancement call
    to the language model, then a bounded loop of POST requests to the image
    service with exponential backoff between transport failures.

    The service, its JSON body and the base64 + image decoding are oracles:
    `server(k)` is what attempt `k` observed, and `decode` turns the
    `image` string into an image or a failure message. Sleeping is not
    performed; every delay is recorded in the trace of events instead. */
module DigitalArtist {
  import opened Wrappers
  import opened Agent

  /** A decoded picture; its contents are opaque to this model. */
  datatype Image = Image(bytes: seq<bv8>)

  /** The JSON body of every request. */
  datatype Payload = Payload(
    prompt: string,
    cfgScale: real,
    aspectRatio: string,
    seed: int,
    steps: int,
    negativePrompt: string)

  const NegativePrompt := "blurry, low quality, distorted, deformed"

  /** `generate_image`'s default for `max_retries`, the one the workflow uses. */
  const DefaultMaxRetries := 3

  /** The request body for an enhanced prompt: every setting but the prompt
      is fixed. */
  function RequestPayload(prompt: string): Payload {
    Payload(prompt, 7.5, "1:1", 0, 50, NegativePrompt)
  }

  /** What a single attempt observed. */
  datatype Attempt =
    | RequestFailed(reason: string)   // the POST raised, or the status was not 2xx: a `RequestException`
    | UnreadableBody(reason: string)  // decoding the body raised something that is not a `RequestException`
    | NotAMapping                     // a 2xx JSON body that is not an object
    | NoImageString                   // an object whose "image" is missing or not a string
    | ImageString(encoded: string)    // an object whose "image" is a string

  /** Only request exceptions are caught by the loop and retried. */
  predicate Retryable(a: Attempt) {
    a.RequestFailed?
  }

  /** Why `generate_image` raised. */
  datatype ImageError =
    | InvalidText
    | EnhanceFailed(reason: string)
    | RequestError(reason: string)
    | BodyError(reason: string)
    | UnexpectedResponseType
    | MissingImageData
    | DecodeFailed(reason: string)

  /** `str(e)` of the exception that escapes `generate_image`. */
  function ErrorMessage(e: ImageError): string {
    match e
    case InvalidText => "Invalid input: text is required and must be a string"
    case EnhanceFailed(reason) => reason
    case RequestError(reason) => reason
    case BodyError(reason) => reason
    case UnexpectedResponseType => "Unexpected response type"
    case MissingImageData => "Response missing image data"
    case DecodeFailed(reason) => reason
  }

  /** How `generate_image` ends: an image, `None` (the loop ran zero
      times), or an exception. */
  datatype Generation = Generated(image: Image) | NoImage | Failed(error: ImageError)

  /** The externally visible actions, in order. */
  datatype Event = Enhance(text: string) | Post(payload: Payload) | Sleep(seconds: nat)

  datatype Run = Run(outcome: Generation, trace: seq<Event>)

  function Pow2(n: nat): nat {
    if n == 0 then 1 else 2 * Pow2(n - 1)
  }

  /** The number of requests sent. */
  function Requests(trace: seq<Event>): nat {
    if trace == [] then 0
    else (if trace[0].Post? then 1 else 0) + Requests(trace[1..])
  }

  /** The number of prompt-enhancement calls. */
  function Enhances(trace: seq<Event>): nat {
    if trace == [] then 0
    else (if trace[0].Enhance? then 1 else 0) + Enhances(trace[1..])
  }

  /** The backoff delays, in order. */
  function Delays(trace: seq<Event>): seq<nat> {
    if trace == [] then []
    else (if trace[0].Sleep? then [trace[0].seconds] else []) + Delays(trace[1..])
  }

  /** The outcome of an attempt after which the loop stops: the last
      request exception is re-raised, a malformed body raises, and a string
      image is decoded. */
  function Settle(a: Attempt, decode: string -> Result<Image, string>): Generation {
    match a
    case RequestFailed(reason) => Failed(RequestError(reason))
    case UnreadableBody(reason) => Failed(BodyError(reason))
    case NotAMapping => Failed(UnexpectedResponseType)
    case NoImageString => Failed(MissingImageData)
    case ImageString(encoded) =>
      match decode(encoded)
      case Success(image) => Generated(image)
      case Failure(reason) => Failed(DecodeFailed(reason))
  }

  /** Reference trace of `n` requests starting at attempt `from`: a request,
      then a sleep of 2^k seconds after the failed attempt k, and no sleep
      after the last request. */
  function Schedule(p: Payload, from: nat, n: nat): seq<Event>
    requires n >= 1
    decreases n
  {
    if n == 1 then [Post(p)]
    else [Post(p), Sleep(Pow2(from))] + Schedule(p, from + 1, n - 1)
  }

  /** The loop begun at `attempt` made `n` requests with trace and outcome as
      in `r`: attempt + n - 1 is the first attempt that is not retryable, or
      the last one allowed, and the loop ends with that attempt's outcome. */
  predicate Stopped(p: Payload, server: nat -> Attempt, decode: string -> Result<Image, string>,
                    attempt: nat, maxRetries: int, n: nat, r: Run)
  {
    && 1 <= n <= maxRetries - attempt
    && r.trace == Schedule(p, attempt, n)
    && (forall k :: attempt <= k < attempt + n - 1 ==> Retryable(server(k)))
    && (Retryable(server(attempt + n - 1)) ==> n == maxRetries - attempt)
    && r.outcome == Settle(server(attempt + n - 1), decode)
  }

  /** `for attempt in range(attempt, max_retries)`, from attempt `attempt` on. */
  function RetryLoop(p: Payload, server: nat -> Attempt, decode: string -> Result<Image, string>,
                     attempt: nat, maxRetries: int): (r: Run)
    decreases maxRetries - attempt
    ensures attempt >= maxRetries ==> r == Run(NoImage, [])
    ensures attempt < maxRetries ==> exists n: nat :: Stopped(p, server, decode, attempt, maxRetries, n, r)
  {
    if attempt >= maxRetries then Run(NoImage, [])
    else
      var a := server(attempt);
      if Retryable(a) && attempt < maxRetries - 1 then
        var rest := RetryLoop(p, server, decode, attempt + 1, maxRetries);
        var r := Run(rest.outcome, [Post(p), Sleep(Pow2(attempt))] + rest.trace);
        assert exists n: nat :: Stopped(p, server, decode, attempt, maxRetries, n, r) by {
          var m: nat :| Stopped(p, server, decode, attempt + 1, maxRetries, m, rest);
          assert r.trace == Schedule(p, attempt, m + 1);
          assert Stopped(p, server, decode, attempt, maxRetries, m + 1, r);
        }
        r
      else
        var r := Run(Settle(a, decode), [Post(p)]);
        assert Stopped(p, server, decode, attempt, maxRetries, 1, r);
        r
  }

  /** The argument check of `validate_input`: `text` must be a string. */
  predicate ValidateInput(text: Arg) {
    text.Str?
  }

  /** `generate_image(text, max_retries)`. `enhance` is what the single
      language-model call returned for `text`. */
  function GenerateImage(text: Arg, enhance: Reply, maxRetries: int,
                         server: nat -> Attempt, decode: string -> Result<Image, string>): (r: Run)
    ensures text.NonStr? <==> r.outcome == Failed(InvalidText)
    ensures text.NonStr? ==> r.trace == []
    ensures text.Str? ==> |r.trace| >= 1 && r.trace[0] == Enhance(text.s) && Enhances(r.trace) == 1
    ensures text.Str? && enhance.CallFailed? ==>
      r == Run(Failed(EnhanceFailed(enhance.message)), [Enhance(text.s)])
    ensures Requests(r.trace) <= if maxRetries > 0 then maxRetries else 0
    ensures forall i :: 0 <= i < |r.trace| && r.trace[i].Post? ==>
      enhance.Reply? && r.trace[i].payload == RequestPayload(enhance.text)
    ensures r.outcome == NoImage <==> text.Str? && enhance.Reply? && maxRetries <= 0
  {
    if !ValidateInput(text) then Run(Failed(InvalidText), [])
    else
      match enhance
      case CallFailed(message) => Run(Failed(EnhanceFailed(message)), [Enhance(text.s)])
      case Reply(prompt) =>
        var p := RequestPayload(prompt);
        var loop := RetryLoop(p, server, decode, 0, maxRetries);
        LoopTraceFacts(p, server, decode, maxRetries);
        Run(loop.outcome, [Enhance(text.s)] + loop.trace)
  }

  // ---------------------------------------------------------------------
  // Lemmas about traces

  lemma {:induction false} CountsPrepend(e: Event, t: seq<Event>)
    ensures Requests([e] + t) == (if e.Post? then 1 else 0) + Requests(t)
    ensures Enhances([e] + t) == (if e.Enhance? then 1 else 0) + Enhances(t)
    ensures Delays([e] + t) == (if e.Sleep? then [e.seconds] else []) + Delays(t)
  {
    assert ([e] + t)[1..] == t;
  }

  /** The reference schedule makes exactly `n` requests and calls nothing
      else. */
  lemma {:induction false} ScheduleCounts(p: Payload, from: nat, n: nat)
    requires n >= 1
    ensures Requests(Schedule(p, from, n)) == n
    ensures Enhances(Schedule(p, from, n)) == 0
    decreases n
  {
    if n == 1 {
      CountsPrepend(Post(p), []);
    } else {
      var rest := Schedule(p, from + 1, n - 1);
      ScheduleCounts(p, from + 1, n - 1);
      assert Schedule(p, from, n) == [Post(p)] + ([Sleep(Pow2(from))] + rest);
      CountsPrepend(Sleep(Pow2(from)), rest);
      CountsPrepend(Post(p), [Sleep(Pow2(from))] + rest);
    }
  }

  /** Between its `n` requests the reference schedule sleeps 2^(from + i)
      seconds after request i, and not after the last one. */
  lemma {:induction false} ScheduleDelays(p: Payload, from: nat, n: nat)
    requires n >= 1
    ensures |Delays(Schedule(p, from, n))| == n - 1
    ensures forall i :: 0 <= i < n - 1 ==> Delays(Schedule(p, from, n))[i] == Pow2(from + i)
    decreases n
  {
    if n == 1 {
      CountsPrepend(Post(p), []);
    } else {
      var rest := Schedule(p, from + 1, n - 1);
      ScheduleDelays(p, from + 1, n - 1);
      assert Schedule(p, from, n) == [Post(p)] + ([Sleep(Pow2(from))] + rest);
      CountsPrepend(Sleep(Pow2(from)), rest);
      CountsPrepend(Post(p), [Sleep(Pow2(from))] + rest);
      var d := Delays(Schedule(p, from, n));
      assert d == [Pow2(from)] + Delays(rest);
      forall i | 0 <= i < n - 1
        ensures d[i] == Pow2(from + i)
      {
        if i > 0 {
          assert d[i] == Delays(rest)[i - 1];
        }
      }
    }
  }

  /** Every request of the reference schedule carries `p`. */
  lemma {:induction false} SchedulePayloads(p: Payload, from: nat, n: nat)
    requires n >= 1
    ensures forall i :: 0 <= i < |Schedule(p, from, n)| && Schedule(p, from, n)[i].Post? ==>
      Schedule(p, from, n)[i].payload == p
    decreases n
  {
    if n > 1 {
      var rest := Schedule(p, from + 1, n - 1);
      SchedulePayloads(p, from + 1, n - 1);
      var t := Schedule(p, from, n);
      assert t == [Post(p), Sleep(Pow2(from))] + rest;
      forall i | 0 <= i < |t| && t[i].Post?
        ensures t[i].payload == p
      {
        if i >= 2 {
          assert t[i] == rest[i - 2];
        }
      }
    }
  }

  /** The loop's trace, seen through the counting functions. */
  lemma {:induction false} LoopTraceFacts(p: Payload, server: nat -> Attempt,
                                          decode: string -> Result<Image, string>, maxRetries: int)
    ensures var r := RetryLoop(p, server, decode, 0, maxRetries);
      Requests(r.trace) <= (if maxRetries > 0 then maxRetries else 0)
      && Enhances(r.trace) == 0
      && (forall i :: 0 <= i < |r.trace| && r.trace[i].Post? ==> r.trace[i].payload == p)
      && (r.outcome == NoImage <==> maxRetries <= 0)
  {
    var r := RetryLoop(p, server, decode, 0, maxRetries);
    if 0 < maxRetries {
      var n: nat :| Stopped(p, server, decode, 0, maxRetries, n, r);
      ScheduleCounts(p, 0, n);
      SchedulePayloads(p, 0, n);
    }
  }

  /** How the run of `generate_image` with a valid text and a successful
      enhancement is built from the loop. */
  lemma {:induction false} RunOfLoop(text: string, prompt: string, maxRetries: int,
                                     server: nat -> Attempt, decode: string -> Result<Image, string>)
    ensures var r := GenerateImage(Str(text), Reply(prompt), maxRetries, server, decode);
      var loop := RetryLoop(RequestPayload(prompt), server, decode, 0, maxRetries);
      r.outcome == loop.outcome
      && Requests(r.trace) == Requests(loop.trace)
      && Delays(r.trace) == Delays(loop.trace)
  {
    var loop := RetryLoop(RequestPayload(prompt), server, decode, 0, maxRetries);
    CountsPrepend(Enhance(text), loop.trace);
  }

  /** When attempt `k` is the first that is not retryable, the loop makes
      exactly k + 1 requests, sleeps 2^i after each failed attempt i < k,
      and ends with attempt k's outcome: no request follows it. */
  lemma {:induction false} FirstFinalAttempt(text: string, prompt: string, maxRetries: int,
                                             server: nat -> Attempt, decode: string -> Result<Image, string>, k: nat)
    requires k < maxRetries
    requires forall j :: 0 <= j < k ==> Retryable(server(j))
    requires !Retryable(server(k))
    ensures var r := GenerateImage(Str(text), Reply(prompt), maxRetries, server, decode);
      r.outcome == Settle(server(k), decode)
      && Requests(r.trace) == k + 1
      && |Delays(r.trace)| == k
      && forall i :: 0 <= i < k ==> Delays(r.trace)[i] == Pow2(i)
  {
    var p := RequestPayload(prompt);
    var loop := RetryLoop(p, server, decode, 0, maxRetries);
    var n: nat :| Stopped(p, server, decode, 0, maxRetries, n, loop);
    assert n == k + 1;
    ScheduleCounts(p, 0, n);
    ScheduleDelays(p, 0, n);
    RunOfLoop(text, prompt, maxRetries, server, decode);
    var d := Delays(GenerateImage(Str(text), Reply(prompt), maxRetries, server, decode).trace);
    assert d == Delays(Schedule(p, 0, n));
  }

  /** When every allowed attempt fails in transport, all `max_retries`
      requests are made, there are max_retries - 1 sleeps of 2^i seconds,
      and the last request exception is re-raised. */
  lemma {:induction false} ExhaustsRetries(text: string, prompt: string, maxRetries: int,
                                           server: nat -> Attempt, decode: string -> Result<Image, string>)
    requires maxRetries >= 1
    requires forall k :: 0 <= k < maxRetries ==> Retryable(server(k))
    ensures var r := GenerateImage(Str(text), Reply(prompt), maxRetries, server, decode);
      r.outcome == Failed(RequestError(server(maxRetries - 1).reason))
      && Requests(r.trace) == maxRetries
      && |Delays(r.trace)| == maxRetries - 1
      && forall i :: 0 <= i < maxRetries - 1 ==> Delays(r.trace)[i] == Pow2(i)
  {
    var p := RequestPayload(prompt);
    var loop := RetryLoop(p, server, decode, 0, maxRetries);
    var n: nat :| Stopped(p, server, decode, 0, maxRetries, n, loop);
    assert Retryable(server(n - 1));
    ScheduleCounts(p, 0, n);
    ScheduleDelays(p, 0, n);
    RunOfLoop(text, prompt, maxRetries, server, decode);
    var d := Delays(GenerateImage(Str(text), Reply(prompt), maxRetries, server, decode).trace);
    assert d == Delays(Schedule(p, 0, n));
  }

  /** With the default three attempts: two transport failures followed by a
      decodable image give the image after three requests and sleeps of 1
      and 2 seconds. */
  lemma {:induction false} RecoversOnThirdAttempt(text: string, prompt: string, server: nat -> Attempt,
                                                  decode: string -> Result<Image, string>,
                                                  encoded: string, image: Image)
    requires Retryable(server(0)) && Retryable(server(1))
    requires server(2) == ImageString(encoded) && decode(encoded) == Success(image)
    ensures var r := GenerateImage(Str(text), Reply(prompt), DefaultMaxRetries, server, decode);
      r.outcome == Generated(image) && Requests(r.trace) == 3 && Delays(r.trace) == [1, 2]
  {
    FirstFinalAttempt(text, prompt, DefaultMaxRetries, server, decode, 2);
    assert Pow2(1) == 2;
  }

  /** A body that is not a JSON object on the first attempt raises at once:
      one request, no sleep. */
  lemma {:induction false} NotAMappingStopsAtOnce(text: string, prompt: string, maxRetries: int,
                                                  server: nat -> Attempt, decode: string -> Result<Image, string>)
    requires maxRetries >= 1 && server(0) == NotAMapping
    ensures var r := GenerateImage(Str(text), Reply(prompt), maxRetries, server, decode);
      r.outcome == Failed(UnexpectedResponseType) && Requests(r.trace) == 1 && Delays(r.trace) == []
  {
    FirstFinalAttempt(text, prompt, maxRetries, server, decode, 0);
  }

  /** Apart from the prompt, any two request bodies are identical. */
  lemma {:induction false} PayloadFixedButPrompt(a: string, b: string)
    ensures RequestPayload(a).(prompt := b) == RequestPayload(b)
    ensures RequestPayload(a).prompt == a
  {
  }
}

=== FILE: text.dfy ===
/** The handful of Python `str` operations the pipeline relies on, over
    `string` (a sequence of Unicode scalar values): `isspace`, `strip`,
    `startswith`, `split(sep)`, `sep.join(parts)` and `lower`. */
module Text {
  import opened Wrappers

  /** Python's `str.isspace()` for one character. */
  predicate IsSpace(c: char) {
    var n := c as int;
    || (0x09 <= n <= 0x0D) || (0x1C <= n <= 0x20) || n == 0x85 || n == 0xA0
    || n == 0x1680 || (0x2000 <= n <= 0x200A) || n == 0x2028 || n == 0x2029
    || n == 0x202F || n == 0x205F || n == 0x3000
  }

  predicate AllSpace(s: string) {
    forall i :: 0 <= i < |s| ==> IsSpace(s[i])
  }

  /** Neither end of `s` is whitespace (what `strip` leaves behind). */
  predicate Trimmed(s: string) {
    s == [] || (!IsSpace(s[0]) && !IsSpace(s[|s| - 1]))
  }

  /** The index of the first non-whitespace character at or after `i`,
      or `|s|` when there is none. */
  function SkipSpace(s: string, i: nat): (n: nat)
    requires i <= |s|
    ensures i <= n <= |s|
    ensures forall j :: i <= j < n ==> IsSpace(s[j])
    ensures n == |s| || !IsSpace(s[n])
    decreases |s| - i
  {
    if i < |s| && IsSpace(s[i]) then SkipSpace(s, i + 1) else i
  }

  /** The index just past the last non-whitespace character of `s[lo..j]`,
      or `lo` when there is none. */
  function SkipSpaceBack(s: string, lo: nat, j: nat): (n: nat)
    requires lo <= j <= |s|
    ensures lo <= n <= j
    ensures forall k :: n <= k < j ==> IsSpace(s[k])
    ensures n == lo || !IsSpace(s[n - 1])
    decreases j
  {
    if lo < j && IsSpace(s[j - 1]) then SkipSpaceBack(s, lo, j - 1) else j
  }

  /** `s.strip()`: `lstrip` followed by `rstrip`, that is, the slice of `s`
      between its leading and its trailing whitespace. */
  function Strip(s: string): (r: string)
    ensures Trimmed(r)
    ensures var lo := SkipSpace(s, 0);
      && lo + |r| <= |s| && r == s[lo..lo + |r|]
      && (forall i :: 0 <= i < lo ==> IsSpace(s[i]))
      && (forall i :: lo + |r| <= i < |s| ==> IsSpace(s[i]))
  {
    var lo := SkipSpace(s, 0);
    s[lo..SkipSpaceBack(s, lo, |s|)]
  }

  /** `s.startswith(p)`. */
  predicate StartsWith(s: string, p: string) {
    |p| <= |s| && s[..|p|] == p
  }

  /** An occurrence of `p` in `s` begins at position `j`. */
  predicate OccursAt(s: string, p: string, j: int) {
    0 <= j && j + |p| <= |s| && s[j..j + |p|] == p
  }

  /** `p in s`. */
  predicate Contains(s: string, p: string) {
    exists j :: 0 <= j <= |s| && OccursAt(s, p, j)
  }

  /** `s.find(p, from)`: the leftmost occurrence of `p` at or after `from`. */
  function Find(s: string, p: string, from: nat): (r: Option<nat>)
    ensures r.Some? ==> from <= r.value && OccursAt(s, p, r.value)
    ensures r.Some? ==> forall j :: from <= j < r.value ==> !OccursAt(s, p, j)
    ensures r.None? ==> forall j :: from <= j ==> !OccursAt(s, p, j)
    decreases |s| - from
  {
    if from + |p| > |s| then None
    else if s[from..from + |p|] == p then Some(from)
    else Find(s, p, from + 1)
  }

  /** `sep.join(parts)`. */
  function Join(parts: seq<string>, sep: string): string
    decreases |parts|
  {
    if |parts| == 0 then ""
    else if |parts| == 1 then parts[0]
    else parts[0] + sep + Join(parts[1..], sep)
  }

  /** `s.split(sep)` for a non-empty separator: the pieces between
      successive non-overlapping occurrences of `sep`, scanning left to
      right. Joining them back with `sep` gives `s` again. */
  function Split(s: string, sep: string): (r: seq<string>)
    requires |sep| > 0
    ensures |r| >= 1
    decreases |s|
  {
    match Find(s, sep, 0)
    case None => [s]
    case Some(i) => [s[..i]] + Split(s[i + |sep|..], sep)
  }

  /** Strips every element (`[x.strip() for x in xs]`). */
  function StripAll(xs: seq<string>): seq<string> {
    seq(|xs|, i requires 0 <= i < |xs| => Strip(xs[i]))
  }

  /** Python's `str.lower()` restricted to ASCII letters. */
  function LowerChar(c: char): char {
    if 'A' <= c <= 'Z' then (c as int + 32) as char else c
  }

  function Lower(s: string): string {
    seq(|s|, i requires 0 <= i < |s| => LowerChar(s[i]))
  }

  // ---------------------------------------------------------------------
  // Lemmas about occurrences

  /** No occurrence of `p` lies wholly inside `s[..i]` when none starts
      before `i` in `s`. */
  lemma {:induction false} NoOccurrenceBefore(s: string, p: string, i: nat)
    requires i <= |s|
    requires forall j :: 0 <= j < i ==> !OccursAt(s, p, j)
    ensures |p| > 0 ==> !Contains(s[..i], p)
  {
    forall j | OccursAt(s[..i], p, j) ensures |p| == 0 {
      assert s[..i][j..j + |p|] == s[j..j + |p|];
      assert OccursAt(s, p, j);
    }
  }

  /** `startswith` is an occurrence at position 0. */
  lemma {:induction false} StartsWithOccurs(s: string, p: string)
    ensures StartsWith(s, p) <==> OccursAt(s, p, 0)
  {
  }

  /** The leftmost occurrence is unique: an occurrence with none before it
      is what `Find` returns. */
  lemma {:induction false} FindFirst(s: string, p: string, i: nat)
    requires OccursAt(s, p, i)
    requires forall j :: 0 <= j < i ==> !OccursAt(s, p, j)
    ensures Find(s, p, 0) == Some(i)
  {
  }

  /** For a one-character separator, an occurrence is that character. */
  lemma {:induction false} OccursAtChar(s: string, c: char, j: int)
    ensures OccursAt(s, [c], j) <==> 0 <= j < |s| && s[j] == c
  {
    if 0 <= j < |s| {
      assert s[j..j + 1] == [s[j]];
    }
  }

  lemma {:induction false} ContainsChar(s: string, c: char)
    ensures Contains(s, [c]) <==> c in s
  {
    if c in s {
      var j :| 0 <= j < |s| && s[j] == c;
      OccursAtChar(s, c, j);
    }
    if Contains(s, [c]) {
      var j :| OccursAt(s, [c], j);
      OccursAtChar(s, c, j);
    }
  }

  lemma {:induction false} FindChar(s: string, c: char)
    ensures Find(s, [c], 0).None? <==> c !in s
    ensures Find(s, [c], 0).Some? ==> s[Find(s, [c], 0).value] == c
    ensures Find(s, [c], 0).Some? ==> c !in s[..Find(s, [c], 0).value]
  {
    match Find(s, [c], 0)
    case None =>
      forall j | 0 <= j < |s| ensures s[j] != c {
        OccursAtChar(s, c, j);
      }
    case Some(i) =>
      OccursAtChar(s, c, i);
      forall j | 0 <= j < i ensures s[j] != c {
        OccursAtChar(s, c, j);
      }
  }

  /** An occurrence of a one-character separator cannot start inside a
      prefix that lacks the character. */
  lemma {:induction false} FindCharShift(a: string, y: string, c: char)
    requires c !in a
    ensures Find(a + y, [c], 0) ==
      (match Find(y, [c], 0) case None => None case Some(i) => Some(|a| + i))
  {
    FindChar(y, c);
    FindChar(a + y, c);
    match Find(y, [c], 0)
    case None =>
      assert c !in a + y;
    case Some(i) =>
      var s := a + y;
      assert s[|a| + i] == c;
      OccursAtChar(s, c, |a| + i);
      forall j | 0 <= j < |a| + i ensures !OccursAt(s, [c], j) {
        OccursAtChar(s, c, j);
        if j >= |a| {
          assert s[j] == y[..i][j - |a|];
        } else {
          assert s[j] == a[j];
        }
      }
      FindFirst(s, [c], |a| + i);
  }

  // ---------------------------------------------------------------------
  // Lemmas about split and join

  /** Joining the pieces of a split with the same separator gives the text
      back. */
  lemma {:induction false} SplitJoinBack(s: string, sep: string)
    requires |sep| > 0
    ensures Join(Split(s, sep), sep) == s
    decreases |s|
  {
    match Find(s, sep, 0)
    case None =>
    case Some(i) =>
      var rest := Split(s[i + |sep|..], sep);
      SplitJoinBack(s[i + |sep|..], sep);
      assert Split(s, sep) == [s[..i]] + rest;
      assert ([s[..i]] + rest)[1..] == rest;
      assert s == s[..i] + sep + s[i + |sep|..] by {
        assert s[i..i + |sep|] == sep;
      }
  }

  /** No piece of a split holds the separator. */
  lemma {:induction false} SplitPiecesFree(s: string, sep: string)
    requires |sep| > 0
    ensures forall i :: 0 <= i < |Split(s, sep)| ==> !Contains(Split(s, sep)[i], sep)
    decreases |s|
  {
    match Find(s, sep, 0)
    case None =>
    case Some(i) =>
      var rest := Split(s[i + |sep|..], sep);
      SplitPiecesFree(s[i + |sep|..], sep);
      NoOccurrenceBefore(s, sep, i);
      assert Split(s, sep) == [s[..i]] + rest;
  }

  /** One step of `split` on a one-character separator. */
  lemma {:induction false} SplitStep(s: string, c: char, i: nat)
    requires Find(s, [c], 0) == Some(i)
    ensures i < |s|
    ensures Split(s, [c]) == [s[..i]] + Split(s[i + 1..], [c])
  {
    var sep := [c];
    assert |sep| == 1 && OccursAt(s, sep, i);
    assert Split(s, sep) == [s[..i]] + Split(s[i + |sep|..], sep);
  }

  /** Splitting a join undoes it when no part holds the separator. */
  lemma {:induction false} SplitJoin(parts: seq<string>, c: char)
    requires |parts| >= 1
    requires forall i :: 0 <= i < |parts| ==> c !in parts[i]
    ensures Split(Join(parts, [c]), [c]) == parts
    decreases |parts|
  {
    var s := Join(parts, [c]);
    if |parts| == 1 {
      assert s == parts[0];
      FindChar(s, c);
    } else {
      var p := parts[0];
      var rest := Join(parts[1..], [c]);
      assert s == p + ([c] + rest);
      assert Find(s, [c], 0) == Some(|p|) by {
        OccursAtChar([c] + rest, c, 0);
        FindFirst([c] + rest, [c], 0);
        FindCharShift(p, [c] + rest, c);
      }
      calc {
        Split(s, [c]);
        { SplitStep(s, c, |p|); }
        [s[..|p|]] + Split(s[|p| + 1..], [c]);
        { assert s[..|p|] == p && s[|p| + 1..] == rest; }
        [p] + Split(rest, [c]);
        { SplitJoin(parts[1..], c); }
        [p] + parts[1..];
        parts;
      }
    }
  }

  /** `s.split(c)` has one more piece than `s` has copies of `c`. */
  lemma {:induction false} SplitCount(s: string, c: char)
    ensures |Split(s, [c])| == multiset(s)[c] + 1
    decreases |s|
  {
    FindChar(s, c);
    match Find(s, [c], 0)
    case None =>
    case Some(i) =>
      SplitStep(s, c, i);
      assert s == s[..i] + [s[i]] + s[i + 1..];
      assert multiset(s)[c] == multiset(s[..i])[c] + 1 + multiset(s[i + 1..])[c];
      SplitCount(s[i + 1..], c);
  }

  // ---------------------------------------------------------------------
  // Lemmas about strip

  /** `SkipSpace` stops at the first non-whitespace character. */
  lemma {:induction false} SkipSpaceAt(s: string, i: nat, n: nat)
    requires i <= n <= |s|
    requires forall j :: i <= j < n ==> IsSpace(s[j])
    requires n == |s| || !IsSpace(s[n])
    ensures SkipSpace(s, i) == n
    decreases n - i
  {
    if i < n {
      SkipSpaceAt(s, i + 1, n);
    }
  }

  /** `SkipSpaceBack` stops just past the last non-whitespace character. */
  lemma {:induction false} SkipSpaceBackAt(s: string, lo: nat, n: nat, j: nat)
    requires lo <= n <= j <= |s|
    requires forall k :: n <= k < j ==> IsSpace(s[k])
    requires n == lo || !IsSpace(s[n - 1])
    ensures SkipSpaceBack(s, lo, j) == n
    decreases j - n
  {
    if n < j {
      SkipSpaceBackAt(s, lo, n, j - 1);
    }
  }

  /** Whitespace, then a trimmed core, then whitespace: `strip` returns the
      core. */
  lemma {:induction false} StripExact(a: string, m: string, b: string)
    requires AllSpace(a) && AllSpace(b) && Trimmed(m)
    ensures Strip(a + m + b) == m
  {
    var s := a + m + b;
    var lo := |a| + |m|;
    assert forall j :: 0 <= j < |a| ==> s[j] == a[j];
    assert forall j :: lo <= j < |s| ==> s[j] == b[j - lo];
    if m == [] {
      SkipSpaceAt(s, 0, |s|);
    } else {
      assert s[|a|] == m[0] && s[lo - 1] == m[|m| - 1];
      SkipSpaceAt(s, 0, |a|);
      SkipSpaceBackAt(s, |a|, lo, |s|);
      assert s[|a|..lo] == m;
    }
  }

  /** Any text is its leading whitespace, its stripped core and its
      trailing whitespace. */
  lemma {:induction false} StripMargins(l: string) returns (pre: string, post: string)
    ensures l == pre + Strip(l) + post
    ensures AllSpace(pre) && AllSpace(post)
  {
    var lo := SkipSpace(l, 0);
    var m := Strip(l);
    pre, post := l[..lo], l[lo + |m|..];
    assert l == pre + l[lo..lo + |m|] + post;
    assert AllSpace(pre) by {
      forall i | 0 <= i < |pre| ensures IsSpace(pre[i]) {
        assert pre[i] == l[i];
      }
    }
    assert AllSpace(post) by {
      forall i | 0 <= i < |post| ensures IsSpace(post[i]) {
        assert post[i] == l[lo + |m| + i];
      }
    }
  }

  lemma {:induction false} AllSpaceConcat(x: string, y: string)
    requires AllSpace(x) && AllSpace(y)
    ensures AllSpace(x + y)
  {
    forall i | 0 <= i < |x + y| ensures IsSpace((x + y)[i]) {
      if i < |x| {
        assert (x + y)[i] == x[i];
      } else {
        assert (x + y)[i] == y[i - |x|];
      }
    }
  }

  lemma {:induction false} ConcatRegroup(a: string, b: string, c: string, d: string)
    ensures a + (b + c + d) == (a + b) + c + d
  {
  }

  /** Whitespace in front of a text (indentation) does not change what
      `strip` returns. */
  lemma {:induction false} StripIndent(a: string, l: string)
    requires AllSpace(a)
    ensures Strip(a + l) == Strip(l)
  {
    var pre, post := StripMargins(l);
    var m, x := Strip(l), a + pre;
    AllSpaceConcat(a, pre);
    StripExact(x, m, post);
    ConcatRegroup(a, pre, m, post);
  }

  /** `strip` only removes characters. */
  lemma {:induction false} StripKeepsOut(s: string, c: char)
    requires c !in s
    ensures c !in Strip(s)
  {
  }

  // ---------------------------------------------------------------------
  // Lemmas about lower

  lemma {:induction false} LowerCharIs(c: char, l: char)
    requires 'a' <= l <= 'z'
    ensures LowerChar(c) == l <==> c == l || c as int == l as int - 32
  {
  }

  /** Lower-casing yields "yes" exactly for the case variants of "yes". */
  lemma {:induction false} LowerIsYes(s: string)
    ensures Lower(s) == "yes" <==>
      |s| == 3 && s[0] in "yY" && s[1] in "eE" && s[2] in "sS"
  {
    if |s| == 3 {
      LowerCharIs(s[0], 'y');
      LowerCharIs(s[1], 'e');
      LowerCharIs(s[2], 's');
      assert Lower(s) == [LowerChar(s[0]), LowerChar(s[1]), LowerChar(s[2])];
    }
  }

  /** `s` spells the lower-case word `w` with any mix of ASCII cases. */
  predicate SpelledAnyCase(s: string, w: string) {
    |s| == |w| && forall i :: 0 <= i < |s| ==> s[i] == w[i] || s[i] as int == w[i] as int - 32
  }

  /** Lower-casing yields a lower-case word exactly for its case variants. */
  lemma {:induction false} LowerIsWord(s: string, w: string)
    requires forall i :: 0 <= i < |w| ==> 'a' <= w[i] <= 'z'
    ensures Lower(s) == w <==> SpelledAnyCase(s, w)
  {
    if |s| == |w| {
      forall i | 0 <= i < |s|
        ensures LowerChar(s[i]) == w[i] <==> s[i] == w[i] || s[i] as int == w[i] as int - 32
      {
        LowerCharIs(s[i], w[i]);
      }
      if SpelledAnyCase(s, w) {
        assert forall i :: 0 <= i < |s| ==> Lower(s)[i] == w[i];
      }
    }
  }
}

=== FILE: workflow.dfy ===
/** The console workflow (workflow.py): a per-run state record, the three
    graph nodes as state transformers, the routing rule after feedback, the
    graph's edges and the start of a run.

    Everything the nodes obtain from outside is a parameter: whether
    `create_agents()` succeeded, what the agents' oracles return, whether
    saving the image succeeded, and what the user typed. */
module Workflow {
  import opened Wrappers
  import opened Text
  import opened Agent
  import ContentCreator
  import DigitalArtist

  /** The state threaded through the graph. */
  datatype State = State(
    productDesc: string,
    content: Option<ContentCreator.ContentOutput>,
    image: Option<DigitalArtist.Image>,
    feedback: Option<string>,
    error: Option<string>,
    outputDir: Option<string>)

  /** `state.get("error")` is truthy: present and not the empty string. */
  predicate ErrorSet(s: State) {
    s.error.Some? && s.error.value != ""
  }

  /** What `create_agents()` did: both agents built, or the message of what
      it raised (a missing API key, a failing constructor). */
  datatype Setup = Ready | SetupFailed(message: string)

  /** The oracles of the image agent for one call. */
  datatype Artist = Artist(
    enhance: Reply,
    server: nat -> DigitalArtist.Attempt,
    decode: string -> Result<DigitalArtist.Image, string>)

  /** What `image.save(path)` did. */
  datatype Save = Saved | SaveFailed(message: string)

  /** What `input()` returned, or the message of what it raised. */
  datatype Answer = Answered(text: string) | InputFailed(message: string)

  /** Messages of the exceptions Python raises when a field read is `None`. */
  const NoTitle := "'NoneType' object has no attribute 'title'"
  const NoPath := "expected str, bytes or os.PathLike object, not NoneType"

  /** The node `create_content`. */
  function CreateContent(s: State, setup: Setup, reply: Reply): (t: State)
    ensures t.productDesc == s.productDesc && t.image == s.image
    ensures t.feedback == s.feedback && t.outputDir == s.outputDir
    ensures t.error == None <==>
      setup.Ready? && ContentCreator.CreateContent(Str(s.productDesc), reply).Success?
    ensures t.error == None ==>
      t.content == Some(ContentCreator.CreateContent(Str(s.productDesc), reply).value)
    ensures t.error != None ==> t.content == s.content
    ensures setup.SetupFailed? ==> t.error == Some(setup.message)
    ensures setup.Ready? && ContentCreator.CreateContent(Str(s.productDesc), reply).Failure? ==>
      t.error == Some(ContentCreator.ErrorMessage(ContentCreator.CreateContent(Str(s.productDesc), reply).error))
  {
    match setup
    case SetupFailed(message) => s.(error := Some(message))
    case Ready =>
      match ContentCreator.CreateContent(Str(s.productDesc), reply)
      case Success(c) => s.(content := Some(c), error := None)
      case Failure(e) => s.(error := Some(ContentCreator.ErrorMessage(e)))
  }

  /** What `generate_image(title)` ends with, at the default retry count. */
  function Drawn(title: string, artist: Artist): DigitalArtist.Generation {
    DigitalArtist.GenerateImage(Str(title), artist.enhance, DigitalArtist.DefaultMaxRetries,
                                artist.server, artist.decode).outcome
  }

  /** The node `generate_image`. */
  function GenerateImage(s: State, setup: Setup, artist: Artist, save: Save): (t: State)
    ensures ErrorSet(s) ==> t == s
    ensures t.productDesc == s.productDesc && t.content == s.content
    ensures t.feedback == s.feedback && t.outputDir == s.outputDir
    ensures t.image != s.image ==>
      setup.Ready? && s.content.Some? && t.image.Some?
      && Drawn(s.content.value.title, artist) == DigitalArtist.Generated(t.image.value)
    ensures t.error == None ==>
      !ErrorSet(s) && setup.Ready? && s.content.Some? && s.outputDir.Some? && save.Saved? && t.image.Some?
      && Drawn(s.content.value.title, artist) == DigitalArtist.Generated(t.image.value)
    ensures (!ErrorSet(s) && setup.Ready? && s.content.Some? && s.outputDir.Some?
             && Drawn(s.content.value.title, artist).Generated?) ==>
      t.image == Some(Drawn(s.content.value.title, artist).image)
      && t.error == (if save.Saved? then None else Some(save.message))
    ensures (!ErrorSet(s) && (setup.SetupFailed? || s.content.None?
                              || Drawn(s.content.value.title, artist).Failed?)) ==>
      t.image == s.image && t.error.Some?
    ensures !ErrorSet(s) && setup.SetupFailed? ==> t == s.(error := Some(setup.message))
    ensures !ErrorSet(s) && setup.Ready? && s.content.None? ==> t == s.(error := Some(NoTitle))
    ensures !ErrorSet(s) && setup.Ready? && s.content.Some? && Drawn(s.content.value.title, artist).Failed? ==>
      t == s.(error := Some(DigitalArtist.ErrorMessage(Drawn(s.content.value.title, artist).error)))
    ensures (!ErrorSet(s) && setup.Ready? && s.content.Some? && s.outputDir.None?
             && Drawn(s.content.value.title, artist).Generated?) ==>
      t == s.(image := Some(Drawn(s.content.value.title, artist).image), error := Some(NoPath))
  {
    if ErrorSet(s) then s
    else
      match setup
      case SetupFailed(message) => s.(error := Some(message))
      case Ready =>
        match s.content
        case None => s.(error := Some(NoTitle))
        case Some(c) =>
          match Drawn(c.title, artist)
          case Failed(e) => s.(error := Some(DigitalArtist.ErrorMessage(e)))
          case NoImage => assert false; s
          case Generated(image) =>
            var drawn := s.(image := Some(image), error := None);
            match s.outputDir
            case None => drawn.(error := Some(NoPath))
            case Some(_) =>
              match save
              case Saved => drawn
              case SaveFailed(message) => drawn.(error := Some(message))
  }

  /** The node `get_feedback` (`get_human_feedback`). */
  function GetHumanFeedback(s: State, answer: Answer): (t: State)
    ensures t.productDesc == s.productDesc && t.content == s.content
    ensures t.image == s.image && t.outputDir == s.outputDir
    ensures t.feedback != s.feedback ==> answer.Answered? && t.feedback == Some(Lower(answer.text))
    ensures answer.InputFailed? ==> t.feedback == s.feedback && t.error.Some?
    ensures ErrorSet(s) ==>
      t.error == (if answer.Answered? then s.error else Some(answer.message))
    ensures answer.Answered? && (ErrorSet(s) || (s.content.Some? && (s.image.None? || s.outputDir.Some?))) ==>
      t.feedback == Some(Lower(answer.text))
    ensures !ErrorSet(s) && answer.Answered? ==>
      (t.error == None <==> s.content.Some? && (s.image.None? || s.outputDir.Some?))
    ensures !ErrorSet(s) && !(s.content.Some? && (s.image.None? || s.outputDir.Some?)) ==>
      t.feedback == s.feedback && t.error == Some(if s.content.None? then NoTitle else NoPath)
  {
    if ErrorSet(s) then
      match answer
      case Answered(text) => s.(feedback := Some(Lower(text)))
      case InputFailed(message) => s.(error := Some(message))
    else
      match s.content
      case None => s.(error := Some(NoTitle))
      case Some(_) =>
        if s.image.Some? && s.outputDir.None? then s.(error := Some(NoPath))
        else
          match answer
          case Answered(text) => s.(feedback := Some(Lower(text)), error := None)
          case InputFailed(message) => s.(error := Some(message))
  }

  /** The nodes of the graph; `EndNode` is LangGraph's `END`. */
  datatype Node = CreateContentNode | GenerateImageNode | GetFeedbackNode | EndNode

  /** The conditional edge after `get_feedback`. It is inverted on purpose:
      after an error "yes" means try again, otherwise "yes" means approve. */
  function ShouldContinue(s: State): (n: Node)
    ensures n == CreateContentNode || n == EndNode
    ensures n == CreateContentNode <==> (ErrorSet(s) <==> s.feedback == Some("yes"))
  {
    if ErrorSet(s) then
      if s.feedback == Some("yes") then CreateContentNode else EndNode
    else
      if s.feedback == Some("yes") then EndNode else CreateContentNode
  }

  /** The graph's edges, the conditional one with both of its targets. */
  predicate Edge(a: Node, b: Node) {
    || (a == CreateContentNode && b == GenerateImageNode)
    || (a == GenerateImageNode && b == GetFeedbackNode)
    || (a == GetFeedbackNode && (b == CreateContentNode || b == EndNode))
  }

  const Entry := CreateContentNode

  /** Everything one pass through the three nodes takes from outside. */
  datatype Pass = Pass(
    contentSetup: Setup,
    reply: Reply,
    imageSetup: Setup,
    artist: Artist,
    save: Save,
    answer: Answer)

  /** One pass: `create_content`, `generate_image`, `get_feedback`. */
  function Step(s: State, p: Pass): State {
    GetHumanFeedback(GenerateImage(CreateContent(s, p.contentSetup, p.reply), p.imageSetup, p.artist, p.save),
                     p.answer)
  }

  /** A finished or interrupted run: the last state, the nodes visited in
      order, and whether `END` was reached. */
  datatype Outcome = Outcome(final: State, visited: seq<Node>, finished: bool)

  /** `app.invoke(state)` with one oracle bundle per pass; the run is cut off
      when the bundles run out. */
  function Invoke(s: State, passes: seq<Pass>): (r: Outcome)
    decreases |passes|
    ensures r.final.productDesc == s.productDesc && r.final.outputDir == s.outputDir
    ensures passes == [] <==> r.visited == []
    ensures r.visited != [] ==> r.visited[0] == Entry
    ensures Walk(r.visited)
    ensures r.finished <==> r.visited != [] && r.visited[|r.visited| - 1] == EndNode
    ensures r.finished ==> ShouldContinue(r.final) == EndNode
    ensures !r.finished && passes != [] ==> ShouldContinue(r.final) == CreateContentNode
    ensures |r.visited| <= 3 * |passes| + 1
  {
    if passes == [] then Outcome(s, [], false)
    else
      var t := Step(s, passes[0]);
      var pass := [CreateContentNode, GenerateImageNode, GetFeedbackNode];
      if ShouldContinue(t) == EndNode then Outcome(t, pass + [EndNode], true)
      else
        var rest := Invoke(t, passes[1..]);
        var r := Outcome(rest.final, pass + rest.visited, rest.finished);
        WalkAfterPass(rest.visited);
        r
  }

  /** A walk of the graph: consecutive nodes are joined by an edge. */
  predicate Walk(w: seq<Node>) {
    forall i :: 0 <= i < |w| - 1 ==> Edge(w[i], w[i + 1])
  }

  /** One pass followed by a walk from the entry is a walk. */
  lemma {:induction false} WalkAfterPass(w: seq<Node>)
    requires w == [] || w[0] == Entry
    requires Walk(w)
    ensures Walk([CreateContentNode, GenerateImageNode, GetFeedbackNode] + w)
  {
    var v := [CreateContentNode, GenerateImageNode, GetFeedbackNode] + w;
    forall i | 0 <= i < |v| - 1
      ensures Edge(v[i], v[i + 1])
    {
      if i >= 3 {
        assert v[i] == w[i - 3] && v[i + 1] == w[i - 2];
      }
    }
  }

  /** The state after the first `k` passes, each one a `Step`. */
  function After(s: State, passes: seq<Pass>, k: nat): State
    requires k <= |passes|
    decreases k
  {
    if k == 0 then s else After(Step(s, passes[0]), passes[1..], k - 1)
  }

  /** `r` is a run over `passes` from `s` that makes `k` full passes: it
      stopped after the first pass whose route is `END`, and every earlier
      pass routed back to `create_content`; without `END` it used up every
      pass. */
  predicate RoutedRun(s: State, passes: seq<Pass>, r: Outcome, k: nat) {
    && k <= |passes|
    && |r.visited| == 3 * k + (if r.finished then 1 else 0)
    && (r.finished ==> 1 <= k)
    && (!r.finished ==> k == |passes|)
    && r.final == After(s, passes, k)
    && (forall i :: 1 <= i < k ==> ShouldContinue(After(s, passes, i)) == CreateContentNode)
  }

  /** A pass that routes back to `create_content`, followed by a routed
      run, is a routed run one pass longer. */
  lemma {:induction false} RoutedCons(s: State, passes: seq<Pass>, t: State, k: nat)
    requires passes != [] && t == Step(s, passes[0])
    requires ShouldContinue(t) == CreateContentNode
    requires RoutedRun(t, passes[1..], Invoke(t, passes[1..]), k)
    ensures RoutedRun(s, passes, Invoke(s, passes), k + 1)
  {
    assert After(s, passes, 1) == t;
    forall i | 1 <= i < k + 1 ensures ShouldContinue(After(s, passes, i)) == CreateContentNode {
      assert After(s, passes, i) == After(t, passes[1..], i - 1);
    }
  }

  /** A run makes `k` full passes, routed pass by pass as the conditional
      edge says. */
  lemma {:induction false} InvokeRoutes(s: State, passes: seq<Pass>) returns (k: nat)
    ensures RoutedRun(s, passes, Invoke(s, passes), k)
    decreases |passes|
  {
    if passes == [] {
      k := 0;
    } else {
      var t := Step(s, passes[0]);
      if ShouldContinue(t) == EndNode {
        k := 1;
        assert After(s, passes, 1) == t;
      } else {
        var k' := InvokeRoutes(t, passes[1..]);
        RoutedCons(s, passes, t, k');
        k := k' + 1;
      }
    }
  }

  /** The state a run starts from. */
  function InitialState(desc: string, outputDir: string): State {
    State(desc, None, None, None, None, Some(outputDir))
  }

  /** One turn of the console loop in `main`: "quit" or "exit" in any case
      starts no run; anything else starts one from a fresh state. */
  function StartRun(input: string, outputDir: string): Option<State> {
    if Lower(input) == "quit" || Lower(input) == "exit" then None
    else Some(InitialState(input, outputDir))
  }

  // ---------------------------------------------------------------------
  // Properties of runs

  /** An error whose message is empty is no error: every later node and the
      routing rule behave as if `error` were `None`. */
  lemma {:induction false} EmptyErrorIgnored(s: State, setup: Setup, artist: Artist, save: Save, answer: Answer)
    requires s.error == Some("")
    ensures GenerateImage(s, setup, artist, save) == GenerateImage(s.(error := None), setup, artist, save)
    ensures GetHumanFeedback(s, answer) == GetHumanFeedback(s.(error := None), answer)
    ensures ShouldContinue(s) == ShouldContinue(s.(error := None))
  {
    var z := s.(error := None);
    assert !ErrorSet(s) && !ErrorSet(z);
  }

  /** When reading the answer fails with a message, the route is computed
      from the feedback left over from before: `end` on a first pass, and
      another round after an earlier "yes". */
  lemma {:induction false} InputFailureUsesStaleFeedback(s: State, message: string)
    requires message != ""
    ensures var t := GetHumanFeedback(s, InputFailed(message));
      t.feedback == s.feedback
      && ShouldContinue(t) == (if s.feedback == Some("yes") then CreateContentNode else EndNode)
  {
    var t := GetHumanFeedback(s, InputFailed(message));
    assert ErrorSet(t);
  }

  /** A failed read whose exception has an empty message leaves the error
      unset, so routing reads the previous feedback as on the no-error
      side: another round unless it was "yes". The read is reached only
      after an earlier error or once the content could be printed; before
      that, the missing title or path sets a non-empty error. */
  lemma {:induction false} InputFailureEmptyMessage(s: State)
    ensures var t := GetHumanFeedback(s, InputFailed(""));
      var read := ErrorSet(s) || (s.content.Some? && (s.image.None? || s.outputDir.Some?));
      && t.feedback == s.feedback
      && (read <==> !ErrorSet(t))
      && ShouldContinue(t) ==
        if read <==> s.feedback == Some("yes") then EndNode else CreateContentNode
  {
    var t := GetHumanFeedback(s, InputFailed(""));
    assert ErrorSet(t) == !(ErrorSet(s) || (s.content.Some? && (s.image.None? || s.outputDir.Some?)));
  }

  /** After an error, the run goes round again exactly when the answer is
      "yes" in some mix of cases; leading or trailing blanks make it "no". */
  lemma {:induction false} RetryAfterError(s: State, text: string)
    requires ErrorSet(s)
    ensures ShouldContinue(GetHumanFeedback(s, Answered(text))) == CreateContentNode
      <==> SpelledAnyCase(text, "yes")
  {
    LowerIsWord(text, "yes");
  }

  /** Without an error, content that reached the user is approved exactly
      by "yes" in some mix of cases; any other answer starts another round. */
  lemma {:induction false} ApproveWithoutError(s: State, text: string)
    requires !ErrorSet(s) && s.content.Some? && s.outputDir.Some?
    ensures ShouldContinue(GetHumanFeedback(s, Answered(text))) == EndNode
      <==> SpelledAnyCase(text, "yes")
  {
    LowerIsWord(text, "yes");
    assert !ErrorSet(GetHumanFeedback(s, Answered(text)));
  }

  /** A first pass whose answer cannot be read ends the run after that one
      pass, whatever the stages did. */
  lemma {:induction false} FirstPassInputFailure(desc: string, dir: string, p: Pass)
    requires p.answer.InputFailed? && p.answer.message != ""
    ensures var r := Invoke(InitialState(desc, dir), [p]);
      r.finished && r.final.feedback == None
      && r.visited == [CreateContentNode, GenerateImageNode, GetFeedbackNode, EndNode]
  {
    var s0 := InitialState(desc, dir);
    var s2 := GenerateImage(CreateContent(s0, p.contentSetup, p.reply), p.imageSetup, p.artist, p.save);
    assert s2.feedback == None;
    InputFailureUsesStaleFeedback(s2, p.answer.message);
  }

  /** The console loop stops exactly on "quit" or "exit" in any mix of
      cases; any other line starts a run from a fresh state in which only
      the description and the output directory are set. */
  lemma {:induction false} QuitOrExit(input: string, dir: string)
    ensures StartRun(input, dir).None? <==>
      SpelledAnyCase(input, "quit") || SpelledAnyCase(input, "exit")
    ensures StartRun(input, dir).Some? ==>
      var s := StartRun(input, dir).value;
      s.productDesc == input && s.outputDir == Some(dir)
      && s.content.None? && s.image.None? && s.feedback.None? && s.error.None?
  {
    LowerIsWord(input, "quit");
    LowerIsWord(input, "exit");
  }
}

=== FILE: wrappers.dfy ===
/** Failure-carrying datatypes shared by the model: Python's `None`/value
    optionals and raised-exception-or-value results. */
module Wrappers {

  /** `Optional[T]`: either `None` or a present value. */
  datatype Option<+T> = None | Some(value: T)

  /** The outcome of a call that either returns a value or raises. */
  datatype Result<+T, +E> = Success(value: T) | Failure(error: E)
}
